=== FILE: README.md ===
# Lookup structures over records: a Dafny model

The program benchmarks four ways of finding the records with a given key in a
list of records `Data{key, value}`:

- a linear scan;
- an unbalanced binary search tree (one record per node, ties to the right);
- a red-black tree (one node per key, holding that key's records in insertion order);
- an open-addressing hash table with DJB2 hashing, linear probing and a collision counter.

The code comes in two near-identical files, `main_dox.cpp` and `main.cpp`.

This project models all four structures as immutable Dafny data with pure
functions, plus methods for the hash table's probe loops. It proves each
search against the linear scan, which serves as the reference:

- BST search returns the matching records of the input as a multiset.
- Red-black search returns exactly the linear scan, in order.
- Hash search returns the last record the scan finds, because later duplicates overwrite earlier ones, when the table has at least as many slots as there are records, as the benchmark's `size * 2` table does. A smaller table can drop records once every slot is taken.

Modelling choices:

- **Keys and order.** Keys are byte strings (`seq<Byte>`, bytes 0..255). `Records.Less` is `std::string`'s `<`: lexicographic over unsigned bytes, where a proper prefix is smaller.
- **Parent pointers.** The red-black tree's parent pointers are replaced by a zipper: a subtree in focus plus the path of frames up to the root (`RbTrees.Path`). `Plug` rebuilds the tree from it, so child and parent links agree by construction.
- **Which fix-up.** The fix-up (`RbInsert.FixUp`) follows main_dox.cpp's control flow. That file re-reads `parent` after the inner rotation of the zig-zag case. The rotations are main.cpp's complete ones, which also reset the pivot's parent link.
- **The hash table.** `Put` and `Find` state in one expression where an insertion writes and what a search returns. The methods `Insert` and `Search` carry the program's loops and are proved to compute them.
- **Integer widths.** `unsigned long` is 64 bits, with wrap-around written out (`Hashing.Step`). main_dox.cpp hashes bytes as `unsigned char` (`Hashing.Djb2`). main.cpp adds the raw, signed `char` (`Hashing.SignedDjb2`). The two agree on keys whose bytes are all below 0x80. They can differ once a byte is 0x80 or above: on the one-byte key 0xD0, the lead byte of a Cyrillic letter in UTF-8, the hashes are 177781 and 177525. The slot indices can still coincide, as they do on that key for any table size dividing 256. The table uses main_dox.cpp's hash. Its properties do not depend on which hash gives the home slot.
- **Hash duplicates.** On an equal key the probe loop breaks and the slot is overwritten (main.cpp:203, 210-211; main_dox.cpp:264, 270-271), so the last writer wins, as in `HashTables.Put`.
- **BST ties.** `insertBST` sends equal keys right (main_dox.cpp:68-71), so `Bst.Valid` makes left keys strictly smaller.

## Model

| member | source | states |
|---|---|---|
| Records.LinearSearch | main_dox.cpp:41-48 | a record is in the result exactly when it is in the input and has the target key; the result is no longer than the input |
| Records.LinearSearchAppend | main_dox.cpp:43-46 | scanning a concatenation gives the scans of the parts, concatenated, so matches come out in input order |
| Records.LinearSearchCount | main_dox.cpp:43-46 | every matching record appears in the result as often as in the input, and no other record appears |
| Records.LinearSearchPermutation | main_dox.cpp:41-48 | inputs that are permutations of each other give results that are permutations of each other |
| Records.LinearSearchNone | main_dox.cpp:43-46 | an input without the key scans to nothing |
| Records.LessIrreflexive | main_dox.cpp:68 | no key is below itself in the `std::string` order |
| Records.LessTransitive | main_dox.cpp:68 | the key order is transitive |
| Records.LessTotal | main_dox.cpp:68 | any two different keys are ordered one way or the other |
| Bst.Insert | main_dox.cpp:65-73 | the stored records become the old ones plus the new record, as a multiset: exactly one node is added |
| Bst.InsertMembers | main_dox.cpp:65-73 | every record after an insertion is the new record or was stored before |
| Bst.InsertValid | main_dox.cpp:65-73 | insertion keeps strictly smaller keys on the left and equal or larger keys on the right of every node |
| Bst.Build | main_dox.cpp:374 | the tree built from the records in order is ordered and stores exactly the input records, as a multiset |
| Bst.Search | main_dox.cpp:82-90 | earlier contents of the result vector are kept as its prefix |
| Bst.SearchSound | main_dox.cpp:82-90 | every appended record has the target key and is stored in the tree |
| Bst.SearchComplete | main_dox.cpp:82-90 | on an ordered tree the appended records are the tree's matching records, each exactly once (multiset equality with the linear scan of the in-order records) |
| Bst.SearchMatchesLinear | main_dox.cpp:374-376 | searching the built tree returns the linear scan's result up to order |
| RbTrees.RotateLeft | main.cpp:73-84 | a no-op without a right child; otherwise the right child takes the pivot's place with its own colour, records and right subtree, the pivot keeps its colour and records and becomes its left child over the pivot's old left subtree and the child's old left subtree, and the in-order entries are unchanged |
| RbTrees.RotateRight | main.cpp:86-97 | the mirror image of the left rotation: the left child is promoted with its colour, records and left subtree, the pivot keeps its colour and records and takes over the child's right subtree, and the in-order entries are unchanged |
| RbTrees.PlugInorder | main_dox.cpp:190-194 | putting a subtree back at its position puts its entries between those on the left and on the right of the path |
| RbTrees.PlugHeld | main_dox.cpp:190-194 | a subtree holding another's records plus some more, put into the same position, gives a whole tree holding the other's records plus the same more |
| RbTrees.PlugRootColor | main_dox.cpp:192 | the whole tree's root is the last frame's node, with its colour, key and records, or the subtree itself at the root position |
| RbTrees.BalancedAllPaths | main_dox.cpp:141-169 | uniform black height along the left spine at every node means every path from a node to an empty position meets the same number of black nodes |
| RbTrees.PlugValid | main_dox.cpp:141-169 | a subtree without red-red edges and with uniform black height, put into a path that fits it, gives a whole tree with the same two properties |
| RbInsert.InsertAt | main_dox.cpp:177-196 | insertion from any position keeps every record the whole tree held and adds exactly the new one, as a multiset |
| RbInsert.Insert | main_dox.cpp:177-196 | `insertRBT` loses and duplicates no record: the tree holds its old records plus the new one |
| RbInsert.FixUp | main_dox.cpp:141-169 | whichever way the loop ends (at the root, at a black parent, or with no grandparent), the root is black afterwards and the in-order entries (keys and records) are those of the tree before the fix-up |
| RbInsert.RedUncle | main.cpp:105-112 | the red-uncle case only recolours, and only the grandparent, the parent and the uncle change colour: the grandparent's subtree keeps its shape and entries, its top turns red, both children turn black, and every other node keeps its colour |
| RbInsert.BlackUncle | main_dox.cpp:152-166 | the black-uncle case (rotations and recolouring) keeps the in-order entries of the grandparent's subtree |
| RbInsert.RedUncleValid | main_dox.cpp:148-151 | after the red-uncle case the grandparent's subtree has no red-red edge and uniform black height, and the rest of the path fits it with only its parent allowed to be red, so the loop can go on two levels up |
| RbInsert.BlackUncleValid | main_dox.cpp:152-166 | after the black-uncle case the rotated subtree has no red-red edge and uniform black height, and fits the rest of the path with its own root colour, so the loop can stop |
| RbInsert.BlackUncleShape | main_dox.cpp:152-166 | the rotated subtree has a black top and the black height the grandparent's subtree had |
| RbInsert.FixUpRedBlack | main_dox.cpp:141-169 | starting from a red node whose only possible defect is a red parent, the fix-up leaves a red-black tree: black root, no red node with a red child, equal black counts on all paths |
| RbInsert.InsertAtRedBlack | main_dox.cpp:177-196 | insertion from any position of a red-black tree leaves a red-black tree |
| RbInsert.InsertRedBlack | main_dox.cpp:177-196 | inserting into a red-black tree gives a red-black tree |
| RbInsert.InsertAtInorder | main_dox.cpp:180-195 | insertion from a position changes the tree's entries exactly as the reference insertion changes that subtree's entries |
| RbInsert.InsertAtInorderEqual | main_dox.cpp:182-184 | an equal key appends the record to that node's records and changes nothing else |
| RbInsert.InsertAtInorderLess | main_dox.cpp:185-186 | a smaller key continues in the left subtree, matching the reference insertion |
| RbInsert.InsertAtInorderGreater | main_dox.cpp:187-188 | a larger key continues in the right subtree, matching the reference insertion |
| RbInsert.InsertInorder | main_dox.cpp:177-196 | on an ordered tree, insertion is the reference insertion on the in-order entries: a present key gains the record at the end of its list, a new key gets a single-record entry in key order, and keys stay strictly increasing |
| RbInsert.InsertExistingKeepsShape | main_dox.cpp:180-184 | inserting a present key changes no colour, key or link, and the in-order entries change only at the one entry with that key, whose record list gains the record at its end |
| RbInsert.InsertAtExistingKeepsShape | main_dox.cpp:180-184 | from any position, inserting a present key changes no colour, key or link, and the whole tree's entries are the reference insertion applied to the subtree's entries |
| RbInsert.InsertNewKeyAttaches | main_dox.cpp:190-195 | inserting a new key puts a red node holding just that record at an empty position of the old tree, and then runs the fix-up from there; on an ordered tree that position is the one that puts the new entry in key order |
| RbInsert.InsertAtNewKeyAttaches | main_dox.cpp:190-195 | the same, from any position |
| RbInsert.Search | main_dox.cpp:205-216 | the result is empty or the whole record list of a node with the target key |
| RbInsert.SearchLookup | main_dox.cpp:205-216 | on an ordered tree the search returns exactly the record list stored under the key, or nothing if no node has it |
| RbInsert.Build | main_dox.cpp:380 | the tree built from the records in order is a red-black tree with strictly increasing keys that holds exactly the input records, as a multiset |
| RbInsert.SearchMatchesLinear | main_dox.cpp:380-382 | searching the built tree returns exactly the linear scan's result, in insertion order |
| Entries.AddSorted | main_dox.cpp:180-195 | the reference insertion keeps keys strictly increasing |
| Entries.AddExisting | main_dox.cpp:180-184 | when the key is present, the reference insertion appends the record to that one entry and leaves every other entry as it was |
| Entries.LookupAdd | main_dox.cpp:205-216 | after the reference insertion, the lookup of the inserted key gains the record at the end and every other lookup is unchanged |
| RbStale.BlackUncleStale | main.cpp:113-121 | main.cpp's black-uncle case keeps the in-order entries; on a zig-zag its result has a node on the grandparent's side for the loop to continue from |
| RbStale.FixUpStale | main.cpp:99-143 | main.cpp's fix-up as written ends with a black root and keeps the in-order entries |
| RbStale.InsertAtStale | main.cpp:145-163 | main.cpp's insertion from any position keeps every record the whole tree held and adds exactly the new one |
| RbStale.BuildStale | main.cpp:287 | the tree main.cpp builds holds exactly the input records, as a multiset |
| RbStale.StaleThirdDescends | main.cpp:148-162 | inserting "b" below "c" and "a" hangs it right of "a" and starts the fix-up there, with a red parent |
| RbStale.StaleThirdFixUp | main.cpp:113-121 | on that zig-zag main.cpp's fix-up puts "b" on top, blackens the stale parent "a" and leaves "c" red |
| RbStale.StaleFixUpUnbalances | main.cpp:114-120 | inserting keys "c", "a", "b" with main.cpp's fix-up yields root "b" black, "a" black, "c" red, so the black heights differ; the corrected fix-up yields a red-black tree |
| Hashing.Step | main_dox.cpp:250 | one shift-and-add step stays within 64 bits |
| Hashing.StepIsPolynomial | main_dox.cpp:250 | the step `(h << 5) + h + b` in 64-bit arithmetic is `33 * h + b` reduced once modulo 2^64 |
| Hashing.Djb2 | main_dox.cpp:247-252 | the hash value fits in an `unsigned long` |
| Hashing.Djb2IsPolynomial | main_dox.cpp:247-252 | the 64-bit hash equals the unbounded DJB2 polynomial (5381 times 33 to the length, plus the bytes weighted by descending powers of 33) modulo 2^64 |
| Hashing.Hash | main_dox.cpp:247-252 | for a positive table size, the slot index is below the size and is the DJB2 polynomial modulo 2^64, then modulo the size |
| Hashing.SignedDjb2 | main.cpp:189-195 | main.cpp's signed-char hash value fits in an `unsigned long` |
| Hashing.SignedAgreesOnAscii | main.cpp:189-195 | main.cpp's hash equals main_dox.cpp's on every key whose bytes are all below 0x80 |
| Hashing.SignedDiffersAboveAscii | main.cpp:192 | on the one-byte key 0xD0 the two hashes differ (177525 and 177781), though they agree modulo 256 |
| HashTables.NewTable | main_dox.cpp:239 | a new table has the requested number of slots, all empty, and no collisions |
| HashTables.Probe | main_dox.cpp:260-265 | every probe index is a slot of the table |
| HashTables.StopFrom | main_dox.cpp:263-267 | the walk passes only slots holding another key and ends at the first slot that is empty or holds the key, or passes every slot |
| HashTables.FirstStop | main_dox.cpp:263-267 | a walk takes at most as many steps as there are slots |
| HashTables.Put | main_dox.cpp:259-272 | insertion keeps the table size, raises the counter by at most one, writes only the new record, never clears a slot and never touches a record with another key |
| HashTables.Find | main_dox.cpp:280-290 | search returns at most one record; what it returns has the target key and is stored in some slot |
| HashTables.Insert | main_dox.cpp:259-272 | the probe loop ends within `size` steps and computes the reference insertion |
| HashTables.Search | main_dox.cpp:280-290 | the probe loop ends within `size` steps and computes the reference search |
| HashTables.HomeProbe | main_dox.cpp:260 | the loops start at the walk's first slot, the hash index |
| HashTables.ProbesDistinct | main_dox.cpp:265 | fewer than `size` steps never revisit a slot |
| HashTables.ProbeWraps | main_dox.cpp:265-267 | after `size` steps the walk is back at the home slot |
| HashTables.ProbeReturns | main_dox.cpp:267 | the wrap-around test fires only after all `size` steps |
| HashTables.ProbeCovers | main_dox.cpp:263-267 | every slot lies on every walk |
| HashTables.FullWalk | main_dox.cpp:263-268 | a walk passes every slot exactly when every slot holds a record with another key |
| HashTables.NewTableValid | main_dox.cpp:239 | a new table satisfies the linear-probing invariant |
| HashTables.ValidDistinct | main_dox.cpp:264 | under the invariant no two slots hold the same key |
| HashTables.PutValid | main_dox.cpp:259-272 | insertion keeps the linear-probing invariant: a search for each stored key ends at its slot |
| HashTables.FindStored | main_dox.cpp:280-290 | under the invariant a search for a stored key returns the record stored under it |
| HashTables.FindAbsent | main_dox.cpp:280-290 | a key no slot holds is not found |
| HashTables.FindHeld | main_dox.cpp:280-290 | a search that returns something found a slot holding the key |
| HashTables.FindExact | main_dox.cpp:280-290 | under the invariant a search returns a record exactly when some slot holds it under that key, and nothing exactly when no slot holds the key |
| HashTables.PutFind | main_dox.cpp:259-290 | after an insertion that found room, a search for the inserted key returns the new record (the last writer wins) and every other search is unchanged |
| HashTables.PutOccupancy | main_dox.cpp:270-271 | an insertion fills exactly one slot when its walk ends at an empty slot, and otherwise fills none |
| HashTables.PutOutcome | main_dox.cpp:263-271 | when every slot holds another key the table and the counter are unchanged; otherwise the record is stored and the counter rises by one exactly when the walk took a step, duplicates included |
| HashTables.Build | main_dox.cpp:385-386 | the table built from the records in order has the requested size, satisfies the invariant and occupies no more slots than there are records |
| HashTables.BuildHasRoom | main_dox.cpp:385-386 | with fewer records than slots every walk ends before passing every slot, so no insertion is dropped |
| HashTables.SearchMatchesLinear | main_dox.cpp:385-389 | with at least as many slots as records (the benchmark uses twice as many), searching the built table returns the last record of the linear scan, or nothing when the scan is empty |

## Left out

- Loading the CSV dataset, timing with a clock, random target keys, the `main` driver loop and writing the results file are I/O and benchmarking; none of them changes what the structures compute.
- The `std::multimap` comparison in `main` is a standard-library container whose code is not part of this model.
- gener.py (dataset generation) and gen.py (plotting) are not part of this model.
- Memory management (nodes are never freed) and the global `rbRoot` are left out. The root is passed and returned explicitly.
- main_dox.cpp's `rightRotate` (main_dox.cpp:129-139) never sets `x->parent = y`. A later fix-up there can read a stale null parent and stop early, leaving a red node with a red child. For example, inserting "c", "a", "b", "d" leaves "c" red with a red child "d". The same call is affected on a right-left zig-zag too: after `rightRotate(parent)` the re-read `parent = node->parent` (main_dox.cpp:160) is still the grandparent, so inserting "a", "c", "b" ends with all three nodes black, where `RbInsert.FixUp` gives "b" black over red "a" and red "c". A zipper derives parent links from child links, so that state cannot be written down here. The rotations are modelled as main.cpp's complete ones.
- The `int` collision counter is unbounded here: its 32-bit overflow would need more than 2^31 insertions into one table.
- `size_t` slot indices are unbounded naturals. Every index is reduced modulo the table size, which is positive, so no wrap-around can occur.
- A table of size 0, where `hash` divides by zero, is excluded by the operations' preconditions.
- HashTables.Insert, HashTables.Search, HashTables.Probe, HashTables.Put, HashTables.Find: use main_dox.cpp's unsigned-char hash. The probe loops of main.cpp:197-224 are the same, but main.cpp's signed-char hash (`Hashing.SignedDjb2`) is not plugged into the table. On keys with a byte of 0x80 or above main.cpp's home slots can differ, so its `collisions` count can differ too. The table's other properties hold for any home slot.
- RbInsert.InsertRedBlack: states the invariants for the rotations of main.cpp combined with the control flow of main_dox.cpp. Neither file alone keeps them: see Findings, and the `rightRotate` line above.

## Findings

| source | as written | input that shows it | evidently intended | confidence | as-written member | corrected member |
|---|---|---|---|---|---|---|
| main.cpp:114-120, 132-138 | in the black-uncle zig-zag case, `node` moves up to the parent and is rotated, but the black goes to the stale `parent` pointer, now the lower node, and the loop goes on from it | insert keys "c", "a", "b": the result has root "b" black with black left child "a" and red right child "c", so the left side has two black nodes and the right side one | recolour the new top of the straightened line (main_dox.cpp:156, 160 re-read `parent`), so the tree stays red-black | high; not executed | RbStale.StaleFixUpUnbalances | RbInsert.FixUpRedBlack |

=== FILE: bst.dfy ===
/**
 The unbalanced binary search tree (`insertBST` / `searchBST`). Each node holds
 one record; a key strictly smaller than the node's goes left, anything else
 (ties included) goes right, so records with equal keys form a chain of
 separate nodes. The search descends into both subtrees on equality.
 */
module Bst {
  import opened Records

  datatype Tree = Nil | Node(left: Tree, data: Data, right: Tree)

  /** The records of the tree, in order. */
  function Elements(t: Tree): seq<Data>
  {
    match t
    case Nil => []
    case Node(l, d, r) => Elements(l) + [d] + Elements(r)
  }

  /** The search-tree order with ties to the right: left keys are strictly
      smaller than the node's key, right keys are not smaller. */
  ghost predicate Valid(t: Tree)
  {
    match t
    case Nil => true
    case Node(l, d, r) =>
      && Valid(l) && Valid(r)
      && (forall x | x in Elements(l) :: Less(x.key, d.key))
      && (forall x | x in Elements(r) :: !Less(x.key, d.key))
  }

  /** `insertBST`: one new node holding `d`, at the empty position reached by
      going left on a strictly smaller key and right otherwise. The stored
      records grow by exactly `d`. */
  function Insert(t: Tree, d: Data): (r: Tree)
    ensures multiset(Elements(r)) == multiset(Elements(t)) + multiset{d}
  {
    match t
    case Nil => Node(Nil, d, Nil)
    case Node(l, x, rt) =>
      if Less(d.key, x.key) then Node(Insert(l, d), x, rt)
      else Node(l, x, Insert(rt, d))
  }

  /** A record of the tree after `Insert` is `d` or was already there. */
  lemma InsertMembers(t: Tree, d: Data, y: Data)
    requires y in Elements(Insert(t, d))
    ensures y in Elements(t) || y == d
  {
    assert y in multiset(Elements(Insert(t, d)));
  }

  /** `Insert` keeps the order: strictly smaller keys left, ties and larger
      keys right. */
  lemma {:induction false} InsertValid(t: Tree, d: Data)
    requires Valid(t)
    ensures Valid(Insert(t, d))
  {
    match t
    case Nil =>
    case Node(l, x, rt) =>
      if Less(d.key, x.key) {
        InsertValid(l, d);
        forall y | y in Elements(Insert(l, d))
          ensures Less(y.key, x.key)
        {
          InsertMembers(l, d, y);
        }
      } else {
        InsertValid(rt, d);
        forall y | y in Elements(Insert(rt, d))
          ensures !Less(y.key, x.key)
        {
          InsertMembers(rt, d, y);
        }
      }
  }

  /** `searchBST`: appends to `results` every visited record whose key equals
      `key`; it visits the left subtree when `key <= node key` and the right
      subtree when `key >= node key`. Earlier contents of `results` are kept. */
  function Search(t: Tree, key: Key, results: seq<Data>): (r: seq<Data>)
    ensures |results| <= |r| && r[..|results|] == results
  {
    match t
    case Nil => results
    case Node(l, d, rt) =>
      var r1 := if d.key == key then results + [d] else results;
      var r2 := if !Less(d.key, key) then Search(l, key, r1) else r1;
      var r3 := if !Less(key, d.key) then Search(rt, key, r2) else r2;
      assert r3[..|results|] == results by {
        assert r3[..|r2|] == r2 && r2[..|r1|] == r1;
      }
      r3
  }

  /** The records `Search` appends are the ones it found in one node visit,
      then in the left subtree, then in the right subtree. */
  lemma SearchSplit(t: Tree, key: Key, results: seq<Data>)
    requires t.Node?
    ensures var r1 := if t.data.key == key then results + [t.data] else results;
            var r2 := if !Less(t.data.key, key) then Search(t.left, key, r1) else r1;
            var r3 := Search(t, key, results);
            && r3 == (if !Less(key, t.data.key) then Search(t.right, key, r2) else r2)
            && r3[|results|..] == r1[|results|..] + r2[|r1|..] + r3[|r2|..]
  {
  }

  /** Every appended record matches `key` and is stored in the tree. */
  lemma {:induction false} SearchSound(t: Tree, key: Key, results: seq<Data>, x: Data)
    requires x in Search(t, key, results)[|results|..]
    ensures x.key == key && x in Elements(t)
  {
    match t
    case Nil =>
    case Node(l, d, rt) =>
      SearchSplit(t, key, results);
      var r1 := if d.key == key then results + [d] else results;
      var r2 := if !Less(d.key, key) then Search(l, key, r1) else r1;
      var r3 := Search(t, key, results);
      if x in r1[|results|..] {
      } else if x in r2[|r1|..] {
        SearchSound(l, key, r1, x);
      } else {
        assert x in r3[|r2|..];
        SearchSound(rt, key, r2, x);
      }
  }

  /** On a valid tree the appended records are exactly the matching records of
      the tree, each once: the scan of the in-order records, as a multiset. */
  lemma {:induction false} SearchComplete(t: Tree, key: Key, results: seq<Data>)
    requires Valid(t)
    ensures multiset(Search(t, key, results)[|results|..])
         == multiset(LinearSearch(Elements(t), key))
  {
    match t
    case Nil =>
    case Node(l, d, rt) =>
      var r1 := if d.key == key then results + [d] else results;
      var r2 := if !Less(d.key, key) then Search(l, key, r1) else r1;
      var r3 := Search(t, key, results);
      SearchSplit(t, key, results);
      var a, b, c := r1[|results|..], r2[|r1|..], r3[|r2|..];
      assert a == LinearSearch([d], key);
      assert multiset(b) == multiset(LinearSearch(Elements(l), key)) by {
        if !Less(d.key, key) {
          SearchComplete(l, key, r1);
        } else {
          NoMatchLeft(l, d, key);
        }
      }
      assert multiset(c) == multiset(LinearSearch(Elements(rt), key)) by {
        if !Less(key, d.key) {
          SearchComplete(rt, key, r2);
        } else {
          NoMatchRight(rt, d, key);
        }
      }
      ScanOfNode(l, d, rt, key);
      assert multiset(a + b + c) == multiset(a) + multiset(b) + multiset(c);
  }

  /** The scan of a node's records splits into its own record and the scans of
      its two subtrees. */
  lemma ScanOfNode(l: Tree, d: Data, rt: Tree, key: Key)
    ensures multiset(LinearSearch(Elements(Node(l, d, rt)), key))
         == multiset(LinearSearch([d], key)) + multiset(LinearSearch(Elements(l), key))
            + multiset(LinearSearch(Elements(rt), key))
  {
    LinearSearchAppend(Elements(l) + [d], Elements(rt), key);
    LinearSearchAppend(Elements(l), [d], key);
  }

  /** A subtree whose keys all lie below a key smaller than `key` holds no match. */
  lemma NoMatchLeft(l: Tree, d: Data, key: Key)
    requires forall x | x in Elements(l) :: Less(x.key, d.key)
    requires Less(d.key, key)
    ensures LinearSearch(Elements(l), key) == []
  {
    forall x | x in Elements(l)
      ensures x.key != key
    {
      LessTransitive(x.key, d.key, key);
      LessIrreflexive(key);
    }
    LinearSearchNone(Elements(l), key);
  }

  /** A subtree whose keys are all at least a key above `key` holds no match. */
  lemma NoMatchRight(rt: Tree, d: Data, key: Key)
    requires forall x | x in Elements(rt) :: !Less(x.key, d.key)
    requires Less(key, d.key)
    ensures LinearSearch(Elements(rt), key) == []
  {
    LinearSearchNone(Elements(rt), key);
  }

  /** The tree the benchmark builds: the records inserted one by one, in order. */
  function Build(data: seq<Data>): (t: Tree)
    ensures Valid(t)
    ensures multiset(Elements(t)) == multiset(data)
  {
    if data == [] then Nil
    else
      var prefix, last := data[..|data| - 1], data[|data| - 1];
      assert data == prefix + [last];
      assert multiset(data) == multiset(prefix) + multiset{last};
      InsertValid(Build(prefix), last);
      Insert(Build(prefix), last)
  }

  /** Searching the built tree finds the same records as the linear scan over
      the input, up to order. */
  lemma SearchMatchesLinear(data: seq<Data>, key: Key)
    ensures multiset(Search(Build(data), key, [])) == multiset(LinearSearch(data, key))
  {
    var t := Build(data);
    SearchComplete(t, key, []);
    LinearSearchPermutation(Elements(t), data, key);
    assert Search(t, key, [])[0..] == Search(t, key, []);
  }
}

=== FILE: entries.dfy ===
/**
 The reference view of a red-black tree: its in-order sequence of entries, one
 per node, each a key with the records stored under it. `Add` and `Lookup`
 define insertion and search on that sequence directly, without any tree, so
 that the tree operations can be proved against them.
 */
module Entries {
  import opened Records

  /** One tree node seen from outside: its key and its records, oldest first. */
  datatype Entry = Entry(key: Key, values: seq<Data>)

  /** Keys strictly increase along the sequence (so they are distinct). */
  ghost predicate Sorted(s: seq<Entry>)
  {
    forall i, j | 0 <= i < j < |s| :: Less(s[i].key, s[j].key)
  }

  /** Every key of `s` lies strictly above `lo`. */
  ghost predicate Above(s: seq<Entry>, lo: Key)
  {
    forall e | e in s :: Less(lo, e.key)
  }

  /** Every key of `s` lies strictly below `hi`. */
  ghost predicate Below(s: seq<Entry>, hi: Key)
  {
    forall e | e in s :: Less(e.key, hi)
  }

  /** The records stored under `key`, or none. */
  function Lookup(s: seq<Entry>, key: Key): seq<Data>
  {
    if s == [] then []
    else if s[0].key == key then s[0].values
    else Lookup(s[1..], key)
  }

  /** Reference insertion: append `d` to the entry of its key, or put a new
      entry holding just `d` before the first larger key. */
  function Add(s: seq<Entry>, d: Data): seq<Entry>
  {
    if s == [] then [Entry(d.key, [d])]
    else if s[0].key == d.key then [Entry(d.key, s[0].values + [d])] + s[1..]
    else if Less(d.key, s[0].key) then [Entry(d.key, [d])] + s
    else [s[0]] + Add(s[1..], d)
  }

  /** Every record the entries hold, counted with multiplicity. */
  function Held(s: seq<Entry>): multiset<Data>
  {
    if s == [] then multiset{} else multiset(s[0].values) + Held(s[1..])
  }

  lemma {:induction false} HeldAppend(a: seq<Entry>, b: seq<Entry>)
    ensures Held(a + b) == Held(a) + Held(b)
    decreases |a|
  {
    if a == [] {
      assert a + b == b;
    } else {
      assert (a + b)[1..] == a[1..] + b;
      HeldAppend(a[1..], b);
    }
  }

  lemma SortedCons(e: Entry, s: seq<Entry>)
    ensures Sorted([e] + s) <==> Above(s, e.key) && Sorted(s)
  {
    var t := [e] + s;
    if Above(s, e.key) && Sorted(s) {
      forall i, j | 0 <= i < j < |t|
        ensures Less(t[i].key, t[j].key)
      {
        if i > 0 {
          assert t[i] == s[i - 1] && t[j] == s[j - 1];
        } else {
          assert t[j] in s;
        }
      }
    }
    if Sorted(t) {
      forall x | x in s
        ensures Less(e.key, x.key)
      {
        var k :| 0 <= k < |s| && s[k] == x;
        assert t[0] == e && t[k + 1] == x;
      }
      forall i, j | 0 <= i < j < |s|
        ensures Less(s[i].key, s[j].key)
      {
        assert t[i + 1] == s[i] && t[j + 1] == s[j];
      }
    }
  }

  /** A sorted sequence split around one entry: both sides are sorted, and
      the entry's key separates them. */
  lemma SortedSplit(a: seq<Entry>, e: Entry, b: seq<Entry>)
    requires Sorted(a + [e] + b)
    ensures Sorted(a) && Sorted(b) && Below(a, e.key) && Above(b, e.key)
  {
    var s := a + [e] + b;
    assert forall i | 0 <= i < |a| :: s[i] == a[i];
    assert forall i | 0 <= i < |b| :: s[|a| + 1 + i] == b[i];
    assert s[|a|] == e;
    forall x | x in a
      ensures Less(x.key, e.key)
    {
      var k :| 0 <= k < |a| && a[k] == x;
      assert s[k] == x;
    }
    forall x | x in b
      ensures Less(e.key, x.key)
    {
      var k :| 0 <= k < |b| && b[k] == x;
      assert s[|a| + 1 + k] == x;
    }
  }

  /** `Add` puts only keys that are already there or `d.key`, so a lower bound
      of both survives. */
  lemma {:induction false} AddAbove(s: seq<Entry>, d: Data, lo: Key)
    requires Above(s, lo) && Less(lo, d.key)
    ensures Above(Add(s, d), lo)
    decreases |s|
  {
    if s != [] && s[0].key != d.key && !Less(d.key, s[0].key) {
      AddAbove(s[1..], d, lo);
    }
  }

  /** `Add` keeps the keys strictly increasing. */
  lemma {:induction false} AddSorted(s: seq<Entry>, d: Data)
    requires Sorted(s)
    ensures Sorted(Add(s, d))
    decreases |s|
  {
    if s == [] {
    } else {
      SortedCons(s[0], s[1..]);
      assert s == [s[0]] + s[1..];
      if s[0].key == d.key {
        SortedCons(Entry(d.key, s[0].values + [d]), s[1..]);
      } else if Less(d.key, s[0].key) {
        forall x | x in s
          ensures Less(d.key, x.key)
        {
          if x != s[0] {
            LessTransitive(d.key, s[0].key, x.key);
          }
        }
        SortedCons(Entry(d.key, [d]), s);
      } else {
        LessTotal(d.key, s[0].key);
        AddSorted(s[1..], d);
        AddAbove(s[1..], d, s[0].key);
        SortedCons(s[0], Add(s[1..], d));
      }
    }
  }

  /** Looking up in `Add(s, d)` finds what `s` held, plus `d` under its own key. */
  lemma {:induction false} LookupAdd(s: seq<Entry>, d: Data, key: Key)
    requires Sorted(s)
    ensures Lookup(Add(s, d), key) == if key == d.key then Lookup(s, key) + [d] else Lookup(s, key)
    decreases |s|
  {
    if s == [] {
    } else {
      SortedCons(s[0], s[1..]);
      assert s == [s[0]] + s[1..];
      if s[0].key == d.key {
      } else if Less(d.key, s[0].key) {
        if key == d.key {
          forall x | x in s
            ensures x.key != key
          {
            if x != s[0] {
              LessTransitive(d.key, s[0].key, x.key);
            }
            LessIrreflexive(key);
            LessAsymmetric(d.key, x.key);
          }
          LookupMissing(s, key);
        }
      } else {
        LookupAdd(s[1..], d, key);
      }
    }
  }

  /** When `d`'s key is already present, `Add` appends `d` to that one entry's
      records and leaves every other entry as it was. */
  lemma {:induction false} AddExisting(s: seq<Entry>, d: Data)
    requires Sorted(s) && exists e | e in s :: e.key == d.key
    ensures exists i | 0 <= i < |s| ::
              && s[i].key == d.key
              && Add(s, d) == s[i := Entry(d.key, s[i].values + [d])]
    decreases |s|
  {
    SortedCons(s[0], s[1..]);
    if s[0].key == d.key {
      assert Add(s, d) == s[0 := Entry(d.key, s[0].values + [d])];
    } else {
      var e :| e in s && e.key == d.key;
      assert s == [s[0]] + s[1..];
      assert e in s[1..];
      assert Less(s[0].key, d.key);
      LessAsymmetric(d.key, s[0].key);
      AddExisting(s[1..], d);
      var i :| 0 <= i < |s[1..]| && s[1..][i].key == d.key
               && Add(s[1..], d) == s[1..][i := Entry(d.key, s[1..][i].values + [d])];
      UpdateTail(s, i, Entry(d.key, s[i + 1].values + [d]));
    }
  }

  /** Updating the tail of a sequence is updating the sequence one further on. */
  lemma UpdateTail(s: seq<Entry>, i: nat, x: Entry)
    requires s != [] && i < |s| - 1
    ensures [s[0]] + s[1..][i := x] == s[i + 1 := x]
  {
  }

  /** A key that no entry carries looks up to nothing. */
  lemma LookupMissing(s: seq<Entry>, key: Key)
    requires forall e | e in s :: e.key != key
    ensures Lookup(s, key) == []
  {
    if s != [] {
      LookupMissing(s[1..], key);
    }
  }

  /** Entries in front that do not carry `key` are skipped by `Lookup`. */
  lemma {:induction false} LookupSkip(a: seq<Entry>, b: seq<Entry>, key: Key)
    requires forall e | e in a :: e.key != key
    ensures Lookup(a + b, key) == Lookup(b, key)
    decreases |a|
  {
    if a == [] {
      assert a + b == b;
    } else {
      assert (a + b)[1..] == a[1..] + b;
      LookupSkip(a[1..], b, key);
    }
  }

  /** Entries behind that do not carry `key` do not change `Lookup`. */
  lemma {:induction false} LookupPrefix(a: seq<Entry>, b: seq<Entry>, key: Key)
    requires forall e | e in b :: e.key != key
    ensures Lookup(a + b, key) == Lookup(a, key)
    decreases |a|
  {
    if a == [] {
      assert a + b == b;
      LookupMissing(b, key);
    } else {
      assert (a + b)[1..] == a[1..] + b;
      LookupPrefix(a[1..], b, key);
    }
  }

  /** Inserting in front of a larger key leaves everything behind it alone. */
  lemma {:induction false} AddBeforeLarger(a: seq<Entry>, b: seq<Entry>, d: Data)
    requires b != [] && Less(d.key, b[0].key)
    ensures Add(a + b, d) == Add(a, d) + b
    decreases |a|
  {
    if a == [] {
      assert a + b == b;
      LessIrreflexive(d.key);
    } else {
      assert (a + b)[1..] == a[1..] + b;
      if a[0].key == d.key || Less(d.key, a[0].key) {
      } else {
        AddBeforeLarger(a[1..], b, d);
      }
    }
  }

  /** Inserting behind smaller keys leaves everything in front of it alone. */
  lemma {:induction false} AddAfterSmaller(a: seq<Entry>, b: seq<Entry>, d: Data)
    requires Below(a, d.key)
    ensures Add(a + b, d) == a + Add(b, d)
    decreases |a|
  {
    if a == [] {
      assert a + b == b;
    } else {
      assert (a + b)[1..] == a[1..] + b;
      LessIrreflexive(d.key);
      LessAsymmetric(a[0].key, d.key);
      AddAfterSmaller(a[1..], b, d);
    }
  }
}

=== FILE: hash_tables.dfy ===
/**
 The open-addressing hash table: a vector of slots, each empty or holding one
 record, and a counter of insertions that had to probe past their home slot.
 A key's home slot is its DJB2 hash modulo the table size; insertion and
 search walk forward from there one slot at a time, wrapping at the end, and
 stop at an empty slot or a slot holding the key. A walk that comes back to
 its home slot has seen every slot and gives up.

 `Put` and `Find` state in one expression what an insertion and a search do;
 the methods `Insert` and `Search` carry the program's probe loops and are
 proved to compute them.
 */
module HashTables {
  import opened Records
  import opened Hashing

  datatype Slot = Empty | Occupied(data: Data)

  /** `slots` is the vector `table` (its length is `size`); `collisions` counts
      insertions that took at least one probe step. */
  datatype HashTable = HashTable(slots: seq<Slot>, collisions: int)

  /** The constructor `HashTable(s)`: `s` empty slots, no collisions. */
  function NewTable(size: nat): (t: HashTable)
    ensures |t.slots| == size && t.collisions == 0
    ensures forall i | 0 <= i < size :: t.slots[i].Empty?
  {
    HashTable(seq(size, _ => Empty), 0)
  }

  /** The slot a walk for `key` visits after `j` steps in a table of `n` slots. */
  function Probe(key: Key, n: nat, j: nat): (i: nat)
    requires n > 0
    ensures i < n
  {
    (Djb2(key) % n + j) % n
  }

  /** A walk for `key` ends at this slot: it is empty or holds `key`. */
  predicate Stops(s: Slot, key: Key)
  {
    s.Empty? || s.data.key == key
  }

  /** The number of steps, from the `j`-th on, before a walk for `key` ends;
      `|slots|` when it passes every remaining slot. */
  function StopFrom(slots: seq<Slot>, key: Key, j: nat): (s: nat)
    requires |slots| > 0 && j <= |slots|
    ensures j <= s <= |slots|
    ensures forall i | j <= i < s :: !Stops(slots[Probe(key, |slots|, i)], key)
    ensures s < |slots| ==> Stops(slots[Probe(key, |slots|, s)], key)
    decreases |slots| - j
  {
    if j == |slots| then j
    else if Stops(slots[Probe(key, |slots|, j)], key) then j
    else StopFrom(slots, key, j + 1)
  }

  /** The number of steps a walk for `key` takes before it ends. */
  function FirstStop(slots: seq<Slot>, key: Key): (s: nat)
    requires |slots| > 0
    ensures s <= |slots|
  {
    StopFrom(slots, key, 0)
  }

  /** `insert`: `d` goes into the slot where its walk ends, replacing the
      record there if it has `d`'s key; if the walk passes every slot the
      table is left alone. */
  function Put(t: HashTable, d: Data): (r: HashTable)
    requires |t.slots| > 0
    ensures |r.slots| == |t.slots|
    ensures r.collisions == t.collisions || r.collisions == t.collisions + 1
    ensures forall i | 0 <= i < |t.slots| :: r.slots[i] == t.slots[i] || r.slots[i] == Occupied(d)
    ensures forall i | 0 <= i < |t.slots| && t.slots[i].Occupied? && t.slots[i].data.key != d.key ::
              r.slots[i] == t.slots[i]
    ensures forall i | 0 <= i < |t.slots| && t.slots[i].Occupied? :: r.slots[i].Occupied?
  {
    var n := |t.slots|;
    var s := FirstStop(t.slots, d.key);
    if s == n then t
    else HashTable(t.slots[Probe(d.key, n, s) := Occupied(d)],
                   if s > 0 then t.collisions + 1 else t.collisions)
  }

  /** `search`: the record in the slot where the walk for `key` ends, if any. */
  function Find(t: HashTable, key: Key): (r: seq<Data>)
    requires |t.slots| > 0
    ensures |r| <= 1
    ensures forall x | x in r :: x.key == key && exists i | 0 <= i < |t.slots| :: t.slots[i] == Occupied(x)
  {
    var n := |t.slots|;
    var s := FirstStop(t.slots, key);
    if s < n && t.slots[Probe(key, n, s)].Occupied? then
      var i := Probe(key, n, s);
      [t.slots[i].data]
    else []
  }

  /** `HashTable::insert`, with its probe loop. */
  method Insert(t: HashTable, d: Data) returns (r: HashTable)
    requires |t.slots| > 0
    ensures r == Put(t, d)
  {
    var size := |t.slots|;
    var idx := Hash(d.key, size);
    HomeProbe(d.key, size, idx);
    ProbeWraps(d.key, size);
    var original := idx;
    var steps := 0;
    while t.slots[idx].Occupied?
      invariant 0 <= steps < size
      invariant idx == Probe(d.key, size, steps)
      invariant StopFrom(t.slots, d.key, steps) == FirstStop(t.slots, d.key)
      decreases size - steps
    {
      if t.slots[idx].data.key == d.key {
        break;
      }
      NextProbe(d.key, size, steps);
      StepPast(t.slots, d.key, steps);
      idx := (idx + 1) % size;
      steps := steps + 1;
      if idx == original {
        ProbeReturns(d.key, size, steps);
        return t;
      }
    }
    var c := if steps > 0 then t.collisions + 1 else t.collisions;
    r := HashTable(t.slots[idx := Occupied(d)], c);
  }

  /** `HashTable::search`, with its probe loop. */
  method Search(t: HashTable, key: Key) returns (r: seq<Data>)
    requires |t.slots| > 0
    ensures r == Find(t, key)
  {
    var size := |t.slots|;
    var idx := Hash(key, size);
    HomeProbe(key, size, idx);
    ProbeWraps(key, size);
    var original := idx;
    var steps := 0;
    while t.slots[idx].Occupied?
      invariant 0 <= steps < size
      invariant idx == Probe(key, size, steps)
      invariant StopFrom(t.slots, key, steps) == FirstStop(t.slots, key)
      decreases size - steps
    {
      if t.slots[idx].data.key == key {
        return [t.slots[idx].data];
      }
      NextProbe(key, size, steps);
      StepPast(t.slots, key, steps);
      idx := (idx + 1) % size;
      steps := steps + 1;
      if idx == original {
        ProbeReturns(key, size, steps);
        break;
      }
    }
    r := [];
  }

  // ---------------------------------------------------------------------
  // Probe arithmetic

  /** The index `Hash` returns is the first slot of the walk. */
  lemma HomeProbe(key: Key, n: nat, idx: nat)
    requires n > 0 && idx == Poly(key) % Modulus % n
    ensures Probe(key, n, 0) == idx
  {
    Djb2IsPolynomial(key);
    ModOfSmall(idx, n);
  }

  /** A slot the walk passes does not end it. */
  lemma StepPast(slots: seq<Slot>, key: Key, j: nat)
    requires |slots| > 0 && j < |slots|
    requires !Stops(slots[Probe(key, |slots|, j)], key)
    ensures StopFrom(slots, key, j + 1) == StopFrom(slots, key, j)
  {
  }

  lemma ModOfSmall(i: nat, n: nat)
    requires i < n
    ensures i % n == i
  {
    ModUnique(i, 0, i, n);
  }

  /** Stepping the index by one modulo the size is the next probe. */
  lemma NextProbe(key: Key, n: nat, j: nat)
    requires n > 0
    ensures (Probe(key, n, j) + 1) % n == Probe(key, n, j + 1)
  {
    ModAddLeft(Djb2(key) % n + j, 1, n);
  }

  /** Within fewer than `n` steps a walk never visits a slot twice. */
  lemma ProbesDistinct(key: Key, n: nat, j: nat, s: nat)
    requires n > 0 && j < s && s - j < n
    ensures Probe(key, n, j) != Probe(key, n, s)
  {
    var h := Djb2(key) % n;
    var a, b := (h + j) / n, (h + s) / n;
    assert h + j == a * n + Probe(key, n, j);
    assert h + s == b * n + Probe(key, n, s);
    if Probe(key, n, j) == Probe(key, n, s) {
      assert s - j == (b - a) * n;
      SmallMultiple(b - a, n, s - j);
    }
  }

  /** After `n` steps the walk is back at its home slot. */
  lemma ProbeWraps(key: Key, n: nat)
    requires n > 0
    ensures Probe(key, n, n) == Probe(key, n, 0)
  {
    var h := Djb2(key) % n;
    ModMultiple(h, 1, n);
    ModOfSmall(h, n);
  }

  /** The walk is back at its home slot after `s` steps, `0 < s <= n`, only
      when it has taken all `n`. */
  lemma ProbeReturns(key: Key, n: nat, s: nat)
    requires n > 0 && 0 < s <= n
    requires Probe(key, n, s) == Probe(key, n, 0)
    ensures s == n
  {
    if s < n {
      ProbesDistinct(key, n, 0, s);
    }
  }

  /** Every slot lies on every walk: slot `i` is visited after
      `(i - home) mod n` steps. */
  lemma ProbeCovers(key: Key, n: nat, i: nat)
    requires n > 0 && i < n
    ensures var j := (i - Djb2(key) % n) % n; j < n && Probe(key, n, j) == i
  {
    var h := Djb2(key) % n;
    var j := (i - h) % n;
    var q := (i - h) / n;
    assert i - h == q * n + j;
    assert h + j == i + (-q) * n;
    ModMultiple(i, -q, n);
    ModOfSmall(i, n);
  }

  /** A walk that takes exactly `s` steps, read off its slots. */
  lemma StopAt(slots: seq<Slot>, key: Key, s: nat)
    requires |slots| > 0 && s < |slots|
    requires forall i | 0 <= i < s :: !Stops(slots[Probe(key, |slots|, i)], key)
    requires Stops(slots[Probe(key, |slots|, s)], key)
    ensures FirstStop(slots, key) == s
  {
  }

  /** A walk passes every slot exactly when every slot holds a record with
      another key. */
  lemma FullWalk(slots: seq<Slot>, key: Key)
    requires |slots| > 0
    ensures FirstStop(slots, key) == |slots| <==>
            forall i | 0 <= i < |slots| :: slots[i].Occupied? && slots[i].data.key != key
  {
    var n := |slots|;
    if FirstStop(slots, key) == n {
      forall i | 0 <= i < n
        ensures slots[i].Occupied? && slots[i].data.key != key
      {
        ProbeCovers(key, n, i);
      }
    }
  }

  // ---------------------------------------------------------------------
  // The linear-probing invariant

  /** Every stored record sits where the walk for its key ends: no empty slot
      and no other record with its key lies between its home slot and it. */
  ghost predicate Valid(t: HashTable)
  {
    && |t.slots| > 0
    && forall i | 0 <= i < |t.slots| && t.slots[i].Occupied? ::
         && FirstStop(t.slots, t.slots[i].data.key) < |t.slots|
         && Probe(t.slots[i].data.key, |t.slots|, FirstStop(t.slots, t.slots[i].data.key)) == i
  }

  lemma NewTableValid(size: nat)
    requires size > 0
    ensures Valid(NewTable(size))
  {
  }

  /** In a valid table no two slots hold the same key. */
  lemma ValidDistinct(t: HashTable, i: nat, j: nat)
    requires Valid(t) && i < |t.slots| && j < |t.slots|
    requires t.slots[i].Occupied? && t.slots[j].Occupied? && t.slots[i].data.key == t.slots[j].data.key
    ensures i == j
  {
  }

  /** `insert` keeps the linear-probing invariant. */
  lemma PutValid(t: HashTable, d: Data)
    requires Valid(t)
    ensures Valid(Put(t, d))
  {
    var n := |t.slots|;
    var s := FirstStop(t.slots, d.key);
    if s < n {
      var p := Probe(d.key, n, s);
      var r := Put(t, d);
      assert r.slots == t.slots[p := Occupied(d)];
      forall i | 0 <= i < n && r.slots[i].Occupied?
        ensures FirstStop(r.slots, r.slots[i].data.key) < n
        ensures Probe(r.slots[i].data.key, n, FirstStop(r.slots, r.slots[i].data.key)) == i
      {
        if i == p {
          forall j | 0 <= j < s
            ensures !Stops(r.slots[Probe(d.key, n, j)], d.key)
          {
            ProbesDistinct(d.key, n, j, s);
          }
          StopAt(r.slots, d.key, s);
        } else {
          var k := t.slots[i].data.key;
          var s' := FirstStop(t.slots, k);
          forall j | 0 <= j < s'
            ensures !Stops(r.slots[Probe(k, n, j)], k)
          {
          }
          StopAt(r.slots, k, s');
        }
      }
    }
  }

  /** In a valid table, a stored record is what a search for its key finds. */
  lemma FindStored(t: HashTable, i: nat)
    requires Valid(t) && i < |t.slots| && t.slots[i].Occupied?
    ensures Find(t, t.slots[i].data.key) == [t.slots[i].data]
  {
  }

  /** A key no slot holds is found nowhere. */
  lemma FindAbsent(t: HashTable, key: Key)
    requires |t.slots| > 0
    requires forall i | 0 <= i < |t.slots| :: !(t.slots[i].Occupied? && t.slots[i].data.key == key)
    ensures Find(t, key) == []
  {
  }

  /** In a valid table `search` finds a record exactly when some slot holds
      it under that key, and finds nothing exactly when no slot holds the key. */
  lemma FindExact(t: HashTable, key: Key, x: Data)
    requires Valid(t)
    ensures Find(t, key) == [x] <==> exists i | 0 <= i < |t.slots| :: t.slots[i] == Occupied(x) && x.key == key
    ensures Find(t, key) == [] <==> forall i | 0 <= i < |t.slots| :: !(t.slots[i].Occupied? && t.slots[i].data.key == key)
  {
    if i :| 0 <= i < |t.slots| && t.slots[i] == Occupied(x) && x.key == key {
      FindStored(t, i);
    }
    if Find(t, key) == [] {
      forall i | 0 <= i < |t.slots|
        ensures !(t.slots[i].Occupied? && t.slots[i].data.key == key)
      {
        if t.slots[i].Occupied? && t.slots[i].data.key == key {
          FindStored(t, i);
        }
      }
    } else {
      FindHeld(t, key);
    }
  }

  /** What `search` finds is stored under its key. */
  lemma FindHeld(t: HashTable, key: Key)
    requires |t.slots| > 0 && Find(t, key) != []
    ensures exists i | 0 <= i < |t.slots| :: t.slots[i].Occupied? && t.slots[i].data.key == key
  {
    var x := Find(t, key)[0];
    assert x in Find(t, key);
    var i :| 0 <= i < |t.slots| && t.slots[i] == Occupied(x);
  }

  /** After an insertion that found room, a search for the inserted key finds
      the inserted record and every other search finds what it found before. */
  lemma PutFind(t: HashTable, d: Data, key: Key)
    requires Valid(t) && FirstStop(t.slots, d.key) < |t.slots|
    ensures Find(Put(t, d), key) == if key == d.key then [d] else Find(t, key)
  {
    var n := |t.slots|;
    var s := FirstStop(t.slots, d.key);
    var p := Probe(d.key, n, s);
    var r := Put(t, d);
    assert r.slots == t.slots[p := Occupied(d)];
    PutValid(t, d);
    if key == d.key {
      FindStored(r, p);
    } else if i :| 0 <= i < n && t.slots[i].Occupied? && t.slots[i].data.key == key {
      assert i != p;
      FindStored(t, i);
      FindStored(r, i);
    } else {
      FindAbsent(t, key);
      FindAbsent(r, key);
    }
  }

  // ---------------------------------------------------------------------
  // Occupancy and the benchmark's build

  /** The number of occupied slots. */
  function Occupancy(slots: seq<Slot>): (c: nat)
    ensures c <= |slots|
  {
    if slots == [] then 0
    else (if slots[0].Occupied? then 1 else 0) + Occupancy(slots[1..])
  }

  /** Writing one slot changes the count by that slot's change alone. */
  lemma {:induction false} OccupancyUpdate(slots: seq<Slot>, p: nat, x: Slot)
    requires p < |slots|
    ensures Occupancy(slots[p := x]) + (if slots[p].Occupied? then 1 else 0)
         == Occupancy(slots) + (if x.Occupied? then 1 else 0)
    decreases |slots|
  {
    if p > 0 {
      assert slots[p := x][1..] == slots[1..][p - 1 := x];
      OccupancyUpdate(slots[1..], p - 1, x);
    }
  }

  /** The table the benchmark builds: a table of `size` slots, then every
      record inserted in order. */
  function Build(data: seq<Data>, size: nat): (t: HashTable)
    requires size > 0
    ensures |t.slots| == size && Valid(t)
    ensures Occupancy(t.slots) <= |data|
  {
    if data == [] then
      NoneOccupied(NewTable(size).slots);
      NewTable(size)
    else
      var prev, d := Build(data[..|data| - 1], size), data[|data| - 1];
      PutValid(prev, d);
      PutOccupancy(prev, d);
      Put(prev, d)
  }

  /** The walk for `key` ends at an empty slot. */
  predicate EndsEmpty(slots: seq<Slot>, key: Key)
    requires |slots| > 0
  {
    FirstStop(slots, key) < |slots| && slots[Probe(key, |slots|, FirstStop(slots, key))].Empty?
  }

  /** An insertion fills one empty slot, or overwrites a record with the same
      key, or (on a full walk) changes nothing. */
  lemma PutOccupancy(t: HashTable, d: Data)
    requires |t.slots| > 0
    ensures Occupancy(Put(t, d).slots) == Occupancy(t.slots) + (if EndsEmpty(t.slots, d.key) then 1 else 0)
  {
    var n := |t.slots|;
    var s := FirstStop(t.slots, d.key);
    if s < n {
      OccupancyUpdate(t.slots, Probe(d.key, n, s), Occupied(d));
    }
  }

  /** When every slot holds another key, `insert` gives up and the table,
      counter included, is unchanged; otherwise `d` is stored and the counter
      goes up by one exactly when the walk took at least one step, whether
      the slot it ends at was empty or held `d`'s key. */
  lemma PutOutcome(t: HashTable, d: Data)
    requires |t.slots| > 0
    ensures (forall i | 0 <= i < |t.slots| :: t.slots[i].Occupied? && t.slots[i].data.key != d.key)
            ==> Put(t, d) == t
    ensures !(forall i | 0 <= i < |t.slots| :: t.slots[i].Occupied? && t.slots[i].data.key != d.key)
            ==> && (exists i | 0 <= i < |t.slots| :: Put(t, d).slots[i] == Occupied(d))
                && Put(t, d).collisions == t.collisions + (if FirstStop(t.slots, d.key) > 0 then 1 else 0)
  {
    FullWalk(t.slots, d.key);
    var n := |t.slots|;
    var s := FirstStop(t.slots, d.key);
    if s < n {
      assert Put(t, d).slots[Probe(d.key, n, s)] == Occupied(d);
    }
  }

  /** The last record of a sequence, if any. */
  function Last(s: seq<Data>): (r: seq<Data>)
    ensures |r| <= 1 && (s == [] <==> r == [])
  {
    if s == [] then [] else [s[|s| - 1]]
  }

  /** With at least as many slots as records (the benchmark uses twice as
      many), no insertion is dropped, and a search of the built table finds
      the last record the linear scan finds: a later record with the same key
      replaces an earlier one. */
  lemma {:induction false} SearchMatchesLinear(data: seq<Data>, size: nat, key: Key)
    requires 0 < size && |data| <= size
    ensures Find(Build(data, size), key) == Last(LinearSearch(data, key))
    decreases |data|
  {
    if data != [] {
      var prefix, d := data[..|data| - 1], data[|data| - 1];
      assert data == prefix + [d];
      var prev := Build(prefix, size);
      assert Build(data, size) == Put(prev, d);
      SearchMatchesLinear(prefix, size, key);
      BuildHasRoom(prefix, size, d);
      PutFind(prev, d, key);
      LastOfScan(prefix, d, key);
    }
  }

  /** Fewer records than slots leave room for one more on every walk. */
  lemma BuildHasRoom(data: seq<Data>, size: nat, d: Data)
    requires |data| < size
    ensures FirstStop(Build(data, size).slots, d.key) < size
  {
    var t := Build(data, size);
    if FirstStop(t.slots, d.key) == size {
      FullWalk(t.slots, d.key);
      AllOccupied(t.slots);
    }
  }

  /** The last match of a scan extended by one record. */
  lemma LastOfScan(data: seq<Data>, d: Data, key: Key)
    ensures Last(LinearSearch(data + [d], key))
         == if d.key == key then [d] else Last(LinearSearch(data, key))
  {
    LinearSearchAppend(data, [d], key);
    assert LinearSearch([d], key) == if d.key == key then [d] else [];
  }

  /** A table of empty slots has none occupied. */
  lemma {:induction false} NoneOccupied(slots: seq<Slot>)
    requires forall i | 0 <= i < |slots| :: slots[i].Empty?
    ensures Occupancy(slots) == 0
    decreases |slots|
  {
    if slots != [] {
      NoneOccupied(slots[1..]);
    }
  }

  /** A table whose every slot is occupied has as many occupied slots as slots. */
  lemma {:induction false} AllOccupied(slots: seq<Slot>)
    requires forall i | 0 <= i < |slots| :: slots[i].Occupied?
    ensures Occupancy(slots) == |slots|
    decreases |slots|
  {
    if slots != [] {
      AllOccupied(slots[1..]);
    }
  }
}

=== FILE: hashing.dfy ===
/**
 The DJB2 string hash of the hash table: start from 5381 and, for each byte of
 the key, shift left by five, add the old value and add the byte, all in a
 64-bit `unsigned long`; the slot index is the result modulo the table size.
 main_dox.cpp adds each byte as an `unsigned char`; main.cpp adds the raw
 `char`, which is signed, so a byte of 0x80 or above is added as a negative
 number. Both variants are here. They agree on keys of 7-bit bytes and can
 differ once a byte is 0x80 or above, as on the one-byte key 0xD0.
 */
module Hashing {
  import opened Records

  /** `unsigned long` is 64 bits wide: every step wraps modulo 2^64. */
  const Modulus: nat := 0x1_0000_0000_0000_0000

  const Seed: nat := 5381

  /** One step: `((h << 5) + h) + b` in 64-bit unsigned arithmetic, `b` being
      the byte as the program adds it (possibly negative, see `SignedChar`). */
  function Step(h: nat, b: int): (r: nat)
    requires h < Modulus
    ensures r < Modulus
  {
    (((h * 32) % Modulus + h) % Modulus + b) % Modulus
  }

  /** DJB2 with bytes added as `unsigned char` (main_dox.cpp), folded left to
      right over the key. */
  function Djb2(key: Key): (h: nat)
    ensures h < Modulus
  {
    if key == [] then Seed
    else Step(Djb2(key[..|key| - 1]), key[|key| - 1])
  }

  /** The value a byte has as a signed `char`: 0x80..0xFF become -128..-1. */
  function SignedChar(b: Byte): int
  {
    if b >= 128 then b - 256 else b
  }

  /** DJB2 with bytes added as (signed) `char` (main.cpp). */
  function SignedDjb2(key: Key): (h: nat)
    ensures h < Modulus
  {
    if key == [] then Seed
    else Step(SignedDjb2(key[..|key| - 1]), SignedChar(key[|key| - 1]))
  }

  /** The DJB2 polynomial over unbounded integers, with no wrap-around:
      5381 * 33^n + the bytes weighted by descending powers of 33. */
  function Poly(key: Key): nat
  {
    if key == [] then Seed
    else 33 * Poly(key[..|key| - 1]) + key[|key| - 1]
  }

  /** The shift-and-add step is multiplication by 33 plus the byte, reduced
      once modulo 2^64. */
  lemma StepIsPolynomial(h: nat, b: int)
    requires h < Modulus
    ensures Step(h, b) == (33 * h + b) % Modulus
  {
    var m := Modulus;
    ModAddLeft(h * 32, h, m);
    ModAddLeft(h * 32 + h, b, m);
    ModAddLeft((h * 32) % m + h, b, m);
    assert h * 32 + h == 33 * h;
  }

  /** Reducing the left summand first does not change a sum's remainder. */
  lemma ModAddLeft(x: int, y: int, m: nat)
    requires m > 0
    ensures (x % m + y) % m == (x + y) % m
  {
    var q := x / m;
    assert x == q * m + x % m;
    ModMultiple(x % m + y, q, m);
  }

  /** Adding a multiple of `m` does not change a remainder. */
  lemma ModMultiple(y: int, q: int, m: nat)
    requires m > 0
    ensures (y + q * m) % m == y % m
  {
    assert y + q * m == (y / m + q) * m + y % m;
    ModUnique(y + q * m, y / m + q, y % m, m);
  }

  /** A remainder is the only value in [0, m) that differs from `z` by a
      multiple of `m`. */
  lemma ModUnique(z: int, a: int, r: int, m: nat)
    requires m > 0 && 0 <= r < m && z == a * m + r
    ensures z % m == r
  {
    var a', r' := z / m, z % m;
    assert z == a' * m + r';
    assert a * m - a' * m == (a - a') * m;
    SmallMultiple(a - a', m, r' - r);
  }

  /** The only multiple of `m` strictly between -m and m is zero. */
  lemma SmallMultiple(k: int, m: int, x: int)
    requires m > 0 && -m < x < m && x == k * m
    ensures k == 0
  {
  }

  /** The 64-bit hash is the unbounded DJB2 polynomial reduced modulo 2^64:
      wrapping at every step loses nothing beyond that single reduction. */
  lemma {:induction false} Djb2IsPolynomial(key: Key)
    ensures Djb2(key) == Poly(key) % Modulus
  {
    if key != [] {
      var p, b := key[..|key| - 1], key[|key| - 1];
      Djb2IsPolynomial(p);
      StepIsPolynomial(Djb2(p), b);
      var q := Poly(p) / Modulus;
      assert Poly(p) == q * Modulus + Djb2(p);
      ModMultiple(33 * Djb2(p) + b, 33 * q, Modulus);
      assert 33 * Djb2(p) + b + 33 * q * Modulus == 33 * Poly(p) + b;
    }
  }

  /** `HashTable::hash`: the DJB2 value reduced to a slot index. */
  method Hash(key: Key, size: nat) returns (idx: nat)
    requires size > 0
    ensures idx < size
    ensures idx == Poly(key) % Modulus % size
  {
    var h := Seed;
    var i := 0;
    while i < |key|
      invariant 0 <= i <= |key|
      invariant h == Djb2(key[..i])
    {
      assert key[..i + 1][..i] == key[..i];
      h := (((h * 32) % Modulus + h) % Modulus + key[i]) % Modulus;
      i := i + 1;
    }
    assert key[..|key|] == key;
    Djb2IsPolynomial(key);
    idx := h % size;
  }

  /** The two character conventions give the same hash when every byte is
      below 0x80. */
  lemma {:induction false} SignedAgreesOnAscii(key: Key)
    requires forall i | 0 <= i < |key| :: key[i] < 128
    ensures SignedDjb2(key) == Djb2(key)
  {
    if key != [] {
      SignedAgreesOnAscii(key[..|key| - 1]);
    }
  }

  /** A byte of 0x80 or above can make the two conventions disagree: here on
      0xD0, the lead byte of a Cyrillic letter in UTF-8. The slot indices
      still coincide for a table size that divides 256. */
  lemma SignedDiffersAboveAscii()
    ensures Djb2([0xD0]) == 177781
    ensures SignedDjb2([0xD0]) == 177525
    ensures Djb2([0xD0]) % 256 == SignedDjb2([0xD0]) % 256
  {
    assert [0xD0][..0] == [];
  }
}

=== FILE: rb_insert.dfy ===
/**
 Insertion into and search of the red-black tree (`fixInsert`, `insertRBT`,
 `searchRBT`). The fix-up follows the control flow of main_dox.cpp, which
 re-reads `parent` after the inner rotation of the zig-zag case, and uses the
 complete rotations of main.cpp, which also reset the pivot's parent link.

 main_dox.cpp's own `rightRotate` never points the pivot's parent link at the
 promoted child, so a later fix-up there can read a stale (null) parent and
 stop early, leaving a red node with a red child. That state has no
 counterpart in a zipper, where parent links are derived from child links;
 this model shows the rotations as they were evidently meant to be.
 */
module RbInsert {
  import opened Records
  import opened Entries
  import opened RbTrees

  /** `fixInsert` on a red `node` whose position is given by `path`. The loop
      runs while the node has a parent and that parent is red; it stops when
      there is no grandparent; a red uncle recolours and moves the node up two
      levels; a black (or missing) uncle straightens a zig-zag by rotating at
      the parent, recolours the top of the straight line black and the
      grandparent red, and rotates at the grandparent. After that rotation the
      node's parent is the black new top, so the loop ends. The root is forced
      black on every exit. */
  function FixUp(node: Tree, path: Path): (r: Tree)
    ensures RootColor(r) == Black
    ensures Inorder(r) == Inorder(Plug(node, path))
    decreases |path|
  {
    if path == [] || path[0].color == Black || |path| == 1 then
      Paint(Plug(node, path), Black)
    else
      var parent, grand := path[0], path[1];
      var uncle := grand.sibling;
      var before := Rebuild(grand, Rebuild(parent, node));
      assert Plug(node, path) == Plug(before, path[2..]);
      if RootColor(uncle) == Red then
        var node' := RedUncle(node, parent, grand);
        PlugSameInorder(node', before, path[2..]);
        FixUp(node', path[2..])
      else
        var after := BlackUncle(node, parent, grand);
        PlugSameInorder(after, before, path[2..]);
        Paint(Plug(after, path[2..]), Black)
  }

  /** The red-uncle case: parent and uncle turn black, the grandparent red,
      and the grandparent's subtree is the new focus. Nothing moves, and no
      other node changes colour. */
  function RedUncle(node: Tree, parent: Frame, grand: Frame): (r: Tree)
    ensures Uncolored(r) == Uncolored(Rebuild(grand, Rebuild(parent, node)))
    ensures Inorder(r) == Inorder(Rebuild(grand, Rebuild(parent, node)))
    ensures r.Node? && r.color == Red && r.key == grand.key
    ensures RootColor(r.left) == Black && RootColor(r.right) == Black
    ensures var b := Rebuild(grand, Rebuild(parent, node));
            r == b.(color := Red, left := Paint(b.left, Black), right := Paint(b.right, Black))
  {
    Rebuild(grand.(color := Red, sibling := Paint(grand.sibling, Black)), Rebuild(parent.(color := Black), node))
  }

  /** The black-uncle case, on the grandparent's subtree: rotate at the parent
      when the node is an inner grandchild, recolour, rotate at the
      grandparent the other way. */
  function BlackUncle(node: Tree, parent: Frame, grand: Frame): (r: Tree)
    ensures Inorder(r) == Inorder(Rebuild(grand, Rebuild(parent, node)))
  {
    var sub := Rebuild(parent, node);
    if grand.dir == Left then
      // the parent is the grandparent's left child
      var p := if parent.dir == Right then RotateLeft(sub) else sub;
      RotateRight(Node(Red, Paint(p, Black), grand.key, grand.values, grand.sibling))
    else
      var p := if parent.dir == Left then RotateRight(sub) else sub;
      RotateLeft(Node(Red, grand.sibling, grand.key, grand.values, Paint(p, Black)))
  }

  /** `insertRBT` from the subtree `t` at position `path`: descend by strict
      comparison; an equal key appends `d` to that node's records and stops
      (no fix-up); an empty position receives a new red node holding `d`,
      followed by the fix-up. */
  function InsertAt(t: Tree, d: Data, path: Path): (r: Tree)
    ensures Held(Inorder(r)) == Held(Inorder(Plug(t, path))) + multiset{d}
    decreases t
  {
    match t
    case Leaf =>
      var n := Node(Red, Leaf, d.key, [d], Leaf);
      HeldNode(n);
      PlugHeld(n, Leaf, path, multiset{d});
      FixUp(n, path)
    case Node(c, l, k, v, rt) =>
      if d.key == k then
        var n := Node(c, l, k, v + [d], rt);
        HeldNode(n);
        HeldNode(t);
        PlugHeld(n, t, path, multiset{d});
        Plug(n, path)
      else if Less(d.key, k) then
        var f := Frame(Left, c, k, v, rt);
        assert ([f] + path)[1..] == path;
        InsertAt(l, d, [f] + path)
      else
        var f := Frame(Right, c, k, v, l);
        assert ([f] + path)[1..] == path;
        InsertAt(rt, d, [f] + path)
  }

  /** `insertRBT`: no record is lost or duplicated; the tree holds one more. */
  function Insert(t: Tree, d: Data): (r: Tree)
    ensures Held(Inorder(r)) == Held(Inorder(t)) + multiset{d}
  {
    InsertAt(t, d, [])
  }

  /** `searchRBT`: descend by comparison and return the whole record list of
      the node with that key, or nothing. What it returns is always some
      node's records. */
  function Search(t: Tree, key: Key): (r: seq<Data>)
    ensures r == [] || Entry(key, r) in Inorder(t)
  {
    match t
    case Leaf => []
    case Node(_, l, k, v, rt) =>
      if key == k then v
      else if Less(key, k) then Search(l, key)
      else Search(rt, key)
  }

  // ---------------------------------------------------------------------
  // Red-black invariants

  lemma RedUncleValid(node: Tree, path: Path)
    requires node.Node? && node.color == Red && RedSeparated(node) && BlackBalanced(node)
    requires |path| >= 2 && path[0].color == Red
    requires RootColor(path[1].sibling) == Red
    requires FixupPathFits(path, BlackHeight(node))
    ensures var n := RedUncle(node, path[0], path[1]);
            && RedSeparated(n) && BlackBalanced(n)
            && FixupPathFits(path[2..], BlackHeight(n))
  {
    var h := BlackHeight(node);
    var parent, grand := path[0], path[1];
    assert path[1..][1..] == path[2..];
    assert PathFits(path[1..], h, Red);
    assert grand.color == Black;
    assert PathFits(path[2..], h + 1, Black);
    var x := Rebuild(parent.(color := Black), node);
    assert RedSeparated(x) && BlackBalanced(x) && BlackHeight(x) == h + 1;
    var u := Paint(grand.sibling, Black);
    assert RedSeparated(u) && BlackBalanced(u) && BlackHeight(u) == h + 1;
    var n := RedUncle(node, parent, grand);
    assert BlackHeight(n) == h + 1;
  }

  lemma BlackUncleValid(node: Tree, path: Path)
    requires node.Node? && node.color == Red && RedSeparated(node) && BlackBalanced(node)
    requires |path| >= 2 && path[0].color == Red
    requires RootColor(path[1].sibling) == Black
    requires FixupPathFits(path, BlackHeight(node))
    ensures var n := BlackUncle(node, path[0], path[1]);
            && RedSeparated(n) && BlackBalanced(n)
            && PathFits(path[2..], BlackHeight(n), RootColor(n))
  {
    var h := BlackHeight(node);
    var parent, grand := path[0], path[1];
    assert path[1..][1..] == path[2..];
    assert PathFits(path[1..], h, Red);
    assert grand.color == Black;
    assert PathFits(path[2..], h + 1, Black);
    assert FrameFits(parent, h) && FrameFits(grand, h);
    BlackUncleShape(node, parent, grand, h);
  }

  /** The subtree the black-uncle case produces is valid, black at its root,
      and as high as the grandparent's subtree was. */
  lemma BlackUncleShape(node: Tree, parent: Frame, grand: Frame, h: nat)
    requires node.Node? && node.color == Red && RedSeparated(node) && BlackBalanced(node)
    requires BlackHeight(node) == h && parent.color == Red
    requires FrameFits(parent, h) && FrameFits(grand, h) && RootColor(grand.sibling) == Black
    ensures var n := BlackUncle(node, parent, grand);
            RedSeparated(n) && BlackBalanced(n) && BlackHeight(n) == h + 1 && RootColor(n) == Black
  {
    var n := BlackUncle(node, parent, grand);
    var a, b := node.left, node.right;
    var s, u := parent.sibling, grand.sibling;
    assert BlackHeight(a) == h && BlackHeight(b) == h;
    assert RootColor(a) == Black && RootColor(b) == Black;
    if grand.dir == Left {
      if parent.dir == Right {
        assert n == Node(Black, Node(Red, s, parent.key, parent.values, a), node.key, node.values,
                                Node(Red, b, grand.key, grand.values, u));
      } else {
        assert n == Node(Black, node, parent.key, parent.values, Node(Red, s, grand.key, grand.values, u));
      }
    } else {
      if parent.dir == Left {
        assert n == Node(Black, Node(Red, u, grand.key, grand.values, a), node.key, node.values,
                                Node(Red, b, parent.key, parent.values, s));
      } else {
        assert n == Node(Black, Node(Red, u, grand.key, grand.values, s), parent.key, parent.values, node);
      }
    }
  }

  /** Fix-up restores all three invariants, given a red focus whose subtree is
      valid and a path where only the focus's parent may break the red rule. */
  lemma {:induction false} FixUpRedBlack(node: Tree, path: Path)
    requires node.Node? && node.color == Red && RedSeparated(node) && BlackBalanced(node)
    requires FixupPathFits(path, BlackHeight(node))
    ensures IsRedBlack(FixUp(node, path))
    decreases |path|
  {
    if path == [] {
    } else if path[0].color == Black {
      PlugValid(node, path);
    } else if |path| == 1 {
      assert Plug(node, path) == Rebuild(path[0], node);
    } else {
      var parent, grand := path[0], path[1];
      if RootColor(grand.sibling) == Red {
        RedUncleValid(node, path);
        FixUpRedBlack(RedUncle(node, parent, grand), path[2..]);
      } else {
        BlackUncleValid(node, path);
        var after := BlackUncle(node, parent, grand);
        PlugValid(after, path[2..]);
      }
    }
  }

  /** While descending, the subtree in focus is valid, fits its path, and the
      tree it plugs into has a black root. */
  lemma {:induction false} InsertAtRedBlack(t: Tree, d: Data, path: Path)
    requires RedSeparated(t) && BlackBalanced(t) && PathFits(path, BlackHeight(t), RootColor(t))
    requires RootColor(Plug(t, path)) == Black
    ensures IsRedBlack(InsertAt(t, d, path))
    decreases t
  {
    match t
    case Leaf =>
      FixUpRedBlack(Node(Red, Leaf, d.key, [d], Leaf), path);
    case Node(c, l, k, v, r) =>
      if d.key == k {
        var t' := Node(c, l, k, v + [d], r);
        PlugValid(t', path);
        PlugRootColor(t, path);
        PlugRootColor(t', path);
      } else if Less(d.key, k) {
        var path' := [Frame(Left, c, k, v, r)] + path;
        assert path'[1..] == path;
        InsertAtRedBlack(l, d, path');
      } else {
        var path' := [Frame(Right, c, k, v, l)] + path;
        assert path'[1..] == path;
        InsertAtRedBlack(r, d, path');
      }
  }

  /** `insertRBT` keeps the root black, no red node with a red child, and
      equal black counts on all root-to-empty paths. */
  lemma InsertRedBlack(t: Tree, d: Data)
    requires IsRedBlack(t)
    ensures IsRedBlack(Insert(t, d))
  {
    InsertAtRedBlack(t, d, []);
  }

  // ---------------------------------------------------------------------
  // Contents

  /** At position `path`, inserting puts `d` where the reference insertion
      on the subtree's entries would, and leaves the rest of the path alone. */
  lemma {:induction false} InsertAtInorder(t: Tree, d: Data, path: Path)
    requires Sorted(Inorder(t))
    ensures Inorder(InsertAt(t, d, path)) == PathBefore(path) + Add(Inorder(t), d) + PathAfter(path)
    decreases t, 1
  {
    match t
    case Leaf =>
      PlugInorder(Node(Red, Leaf, d.key, [d], Leaf), path);
    case Node(c, l, k, v, r) =>
      SortedSplit(Inorder(l), Entry(k, v), Inorder(r));
      if d.key == k {
        InsertAtInorderEqual(t, d, path);
      } else if Less(d.key, k) {
        InsertAtInorderLess(t, d, path);
      } else {
        InsertAtInorderGreater(t, d, path);
      }
  }

  lemma InsertAtInorderEqual(t: Tree, d: Data, path: Path)
    requires t.Node? && d.key == t.key && Below(Inorder(t.left), t.key)
    ensures Inorder(InsertAt(t, d, path)) == PathBefore(path) + Add(Inorder(t), d) + PathAfter(path)
  {
    var Node(c, l, k, v, r) := t;
    var a, e, b := Inorder(l), Entry(k, v), Inorder(r);
    var pre, post := PathBefore(path), PathAfter(path);
    calc {
      Inorder(InsertAt(t, d, path));
      Inorder(Plug(Node(c, l, k, v + [d], r), path));
      { PlugInorder(Node(c, l, k, v + [d], r), path); }
      pre + (a + [Entry(k, v + [d])] + b) + post;
      { AddAtEqual(a, e, b, d); }
      pre + Add(Inorder(t), d) + post;
    }
  }

  lemma {:induction false} InsertAtInorderLess(t: Tree, d: Data, path: Path)
    requires t.Node? && Less(d.key, t.key) && Sorted(Inorder(t.left))
    ensures Inorder(InsertAt(t, d, path)) == PathBefore(path) + Add(Inorder(t), d) + PathAfter(path)
    decreases t, 0
  {
    var Node(c, l, k, v, r) := t;
    var a, e, b := Inorder(l), Entry(k, v), Inorder(r);
    var f := Frame(Left, c, k, v, r);
    DescendLeft(t, d, path);
    PushLeft(f, path);
    InsertAtInorder(l, d, [f] + path);
    AddAtLess(a, e, b, d);
    Regroup(PathBefore(path), Add(a, d), [e], b, PathAfter(path));
  }

  lemma {:induction false} InsertAtInorderGreater(t: Tree, d: Data, path: Path)
    requires t.Node? && d.key != t.key && !Less(d.key, t.key)
    requires Below(Inorder(t.left), t.key) && Sorted(Inorder(t.right))
    ensures Inorder(InsertAt(t, d, path)) == PathBefore(path) + Add(Inorder(t), d) + PathAfter(path)
    decreases t, 0
  {
    var Node(c, l, k, v, r) := t;
    var a, e, b := Inorder(l), Entry(k, v), Inorder(r);
    var f := Frame(Right, c, k, v, l);
    DescendRight(t, d, path);
    PushRight(f, path);
    InsertAtInorder(r, d, [f] + path);
    AddAtGreater(a, e, b, d);
    RegroupFront(PathBefore(path), a, [e], Add(b, d), PathAfter(path));
  }

  /** Going left: a key below the node's continues in the left subtree. */
  lemma DescendLeft(t: Tree, d: Data, path: Path)
    requires t.Node? && Less(d.key, t.key)
    ensures InsertAt(t, d, path) == InsertAt(t.left, d, [Frame(Left, t.color, t.key, t.values, t.right)] + path)
  {
    LessIrreflexive(t.key);
  }

  /** Going right: a key above the node's continues in the right subtree. */
  lemma DescendRight(t: Tree, d: Data, path: Path)
    requires t.Node? && d.key != t.key && !Less(d.key, t.key)
    ensures InsertAt(t, d, path) == InsertAt(t.right, d, [Frame(Right, t.color, t.key, t.values, t.left)] + path)
  {
  }

  /** A frame pushed on the left side puts its node and sibling behind the focus. */
  lemma PushLeft(f: Frame, path: Path)
    requires f.dir == Left
    ensures PathBefore([f] + path) == PathBefore(path)
    ensures PathAfter([f] + path) == [Entry(f.key, f.values)] + Inorder(f.sibling) + PathAfter(path)
  {
    assert ([f] + path)[1..] == path;
  }

  /** A frame pushed on the right side puts its sibling and node in front of the focus. */
  lemma PushRight(f: Frame, path: Path)
    requires f.dir == Right
    ensures PathBefore([f] + path) == PathBefore(path) + Inorder(f.sibling) + [Entry(f.key, f.values)]
    ensures PathAfter([f] + path) == PathAfter(path)
  {
    assert ([f] + path)[1..] == path;
  }

  /** Sequence regrouping for the left descent. */
  lemma Regroup<T>(p: seq<T>, x: seq<T>, y: seq<T>, z: seq<T>, q: seq<T>)
    ensures p + x + (y + z + q) == p + (x + y + z) + q
  {
  }

  /** Sequence regrouping for the right descent. */
  lemma RegroupFront<T>(p: seq<T>, x: seq<T>, y: seq<T>, z: seq<T>, q: seq<T>)
    ensures p + x + y + z + q == p + (x + y + z) + q
  {
  }

  /** The reference insertion of a key equal to a node's key, split at that node. */
  lemma AddAtEqual(a: seq<Entry>, e: Entry, b: seq<Entry>, d: Data)
    requires Below(a, e.key) && d.key == e.key
    ensures Add(a + [e] + b, d) == a + [Entry(e.key, e.values + [d])] + b
  {
    assert a + [e] + b == a + ([e] + b);
    AddAfterSmaller(a, [e] + b, d);
  }

  /** The reference insertion of a key below a node's key, split at that node. */
  lemma AddAtLess(a: seq<Entry>, e: Entry, b: seq<Entry>, d: Data)
    requires Less(d.key, e.key)
    ensures Add(a + [e] + b, d) == Add(a, d) + [e] + b
  {
    assert a + [e] + b == a + ([e] + b);
    AddBeforeLarger(a, [e] + b, d);
  }

  /** The reference insertion of a key above a node's key, split at that node. */
  lemma AddAtGreater(a: seq<Entry>, e: Entry, b: seq<Entry>, d: Data)
    requires Below(a, e.key) && d.key != e.key && !Less(d.key, e.key)
    ensures Add(a + [e] + b, d) == a + [e] + Add(b, d)
  {
    LessTotal(d.key, e.key);
    forall x | x in a + [e]
      ensures Less(x.key, d.key)
    {
      if x != e {
        LessTransitive(x.key, e.key, d.key);
      }
    }
    AddAfterSmaller(a + [e], b, d);
  }

  /** `insertRBT` is the reference insertion on the in-order entries: a
      present key gains `d` at the end of its records, every other node is
      unchanged, and a new key gets one new entry `[d]` in key order. */
  lemma InsertInorder(t: Tree, d: Data)
    requires Ordered(t)
    ensures Inorder(Insert(t, d)) == Add(Inorder(t), d)
    ensures Ordered(Insert(t, d))
  {
    InsertAtInorder(t, d, []);
    AddSorted(Inorder(t), d);
  }

  /** On an ordered tree, `searchRBT` returns exactly the records stored under
      the key, or nothing when no node has it. */
  lemma {:induction false} SearchLookup(t: Tree, key: Key)
    requires Ordered(t)
    ensures Search(t, key) == Lookup(Inorder(t), key)
  {
    match t
    case Leaf =>
    case Node(_, l, k, v, r) =>
      var e := Entry(k, v);
      SortedSplit(Inorder(l), e, Inorder(r));
      LessIrreflexive(key);
      if key == k {
        forall x | x in Inorder(l) ensures x.key != key {
          LessAsymmetric(x.key, key);
        }
        LookupSkip(Inorder(l), [e] + Inorder(r), key);
        assert Inorder(t) == Inorder(l) + ([e] + Inorder(r));
      } else if Less(key, k) {
        SearchLookup(l, key);
        forall x | x in [e] + Inorder(r) ensures x.key != key {
          if x != e {
            LessTransitive(key, k, x.key);
          }
        }
        LookupPrefix(Inorder(l), [e] + Inorder(r), key);
        assert Inorder(t) == Inorder(l) + ([e] + Inorder(r));
      } else {
        SearchLookup(r, key);
        LessTotal(key, k);
        forall x | x in Inorder(l) + [e] ensures x.key != key {
          if x != e {
            LessTransitive(x.key, k, key);
          }
        }
        LookupSkip(Inorder(l) + [e], Inorder(r), key);
      }
  }

  /** Inserting a key that is already present appends to that node's records
      only: no colour, key or link changes anywhere. */
  lemma {:induction false} InsertAtExistingKeepsShape(t: Tree, d: Data, path: Path)
    requires Ordered(t) && HasKey(t, d.key)
    ensures Shape(InsertAt(t, d, path)) == Shape(Plug(t, path))
    ensures Inorder(InsertAt(t, d, path)) == PathBefore(path) + Add(Inorder(t), d) + PathAfter(path)
    decreases t
  {
    InsertAtInorder(t, d, path);
    var Node(c, l, k, v, r) := t;
    var e := Entry(k, v);
    SortedSplit(Inorder(l), e, Inorder(r));
    var x :| x in Inorder(t) && x.key == d.key;
    LessIrreflexive(d.key);
    if d.key == k {
      PlugSameShape(Node(c, l, k, v + [d], r), t, path);
    } else if Less(d.key, k) {
      if x in Inorder(r) {
        LessAsymmetric(d.key, k);
      }
      var path' := [Frame(Left, c, k, v, r)] + path;
      assert path'[1..] == path;
      InsertAtExistingKeepsShape(l, d, path');
    } else {
      LessTotal(d.key, k);
      if x in Inorder(l) {
        LessAsymmetric(d.key, k);
      }
      var path' := [Frame(Right, c, k, v, l)] + path;
      assert path'[1..] == path;
      InsertAtExistingKeepsShape(r, d, path');
    }
  }

  lemma InsertExistingKeepsShape(t: Tree, d: Data)
    requires Ordered(t) && HasKey(t, d.key)
    ensures Shape(Insert(t, d)) == Shape(t)
    ensures exists i | 0 <= i < |Inorder(t)| ::
              && Inorder(t)[i].key == d.key
              && Inorder(Insert(t, d)) == Inorder(t)[i := Entry(d.key, Inorder(t)[i].values + [d])]
  {
    InsertAtExistingKeepsShape(t, d, []);
    var s := Inorder(t);
    assert Inorder(Insert(t, d)) == Add(s, d) by {
      assert PathBefore([]) + Add(s, d) + PathAfter([]) == Add(s, d);
    }
    AddExisting(s, d);
  }

  /** Inserting a new key hangs a red node holding just `d` on an empty
      position of the tree and then runs the fix-up from there. */
  lemma {:induction false} InsertAtNewKeyAttaches(t: Tree, d: Data, path: Path)
    requires !HasKey(t, d.key)
    ensures exists leafPath: Path ::
              && Plug(Leaf, leafPath) == Plug(t, path)
              && InsertAt(t, d, path) == FixUp(Node(Red, Leaf, d.key, [d], Leaf), leafPath)
    decreases t
  {
    match t
    case Leaf =>
      assert Plug(Leaf, path) == Plug(t, path);
    case Node(c, l, k, v, r) =>
      assert Entry(k, v) in Inorder(t);
      if Less(d.key, k) {
        var path' := [Frame(Left, c, k, v, r)] + path;
        assert path'[1..] == path;
        InsertAtNewKeyAttaches(l, d, path');
      } else {
        var path' := [Frame(Right, c, k, v, l)] + path;
        assert path'[1..] == path;
        InsertAtNewKeyAttaches(r, d, path');
      }
  }

  lemma InsertNewKeyAttaches(t: Tree, d: Data)
    requires !HasKey(t, d.key)
    ensures exists leafPath: Path ::
              && Plug(Leaf, leafPath) == t
              && Insert(t, d) == FixUp(Node(Red, Leaf, d.key, [d], Leaf), leafPath)
              && (Ordered(t) ==> Inorder(Plug(Node(Red, Leaf, d.key, [d], Leaf), leafPath)) == Add(Inorder(t), d))
  {
    InsertAtNewKeyAttaches(t, d, []);
    var leafPath: Path :| && Plug(Leaf, leafPath) == Plug(t, [])
                          && Insert(t, d) == FixUp(Node(Red, Leaf, d.key, [d], Leaf), leafPath);
    if Ordered(t) {
      InsertInorder(t, d);
    }
  }

  // ---------------------------------------------------------------------
  // The tree built from a record set

  /** The tree the benchmark builds: every record inserted in order. It is a
      red-black tree with distinct, ordered keys. */
  function Build(data: seq<Data>): (t: Tree)
    ensures IsRedBlack(t) && Ordered(t)
    ensures Held(Inorder(t)) == multiset(data)
  {
    if data == [] then Leaf
    else
      assert data == data[..|data| - 1] + [data[|data| - 1]];
      var t := Build(data[..|data| - 1]);
      InsertRedBlack(t, data[|data| - 1]);
      InsertInorder(t, data[|data| - 1]);
      Insert(t, data[|data| - 1])
  }

  /** Searching the built tree returns exactly what the linear scan returns,
      in insertion order. */
  lemma {:induction false} SearchMatchesLinear(data: seq<Data>, key: Key)
    ensures Search(Build(data), key) == LinearSearch(data, key)
    decreases |data|
  {
    if data != [] {
      var prefix, last := data[..|data| - 1], data[|data| - 1];
      var t := Build(prefix);
      calc {
        Search(Build(data), key);
        Search(Insert(t, last), key);
        { InsertInorder(t, last); SearchLookup(Insert(t, last), key); }
        Lookup(Add(Inorder(t), last), key);
        { LookupAdd(Inorder(t), last, key); SearchLookup(t, key); }
        Search(t, key) + LinearSearch([last], key);
        { SearchMatchesLinear(prefix, key); }
        LinearSearch(prefix, key) + LinearSearch([last], key);
        { LinearSearchAppend(prefix, [last], key); assert data == prefix + [last]; }
        LinearSearch(data, key);
      }
    }
  }
}

=== FILE: rb_stale.dfy ===
/**
 The fix-up of main.cpp as written. Its black-uncle case, on a zig-zag, moves
 `node` up to the parent and rotates there, but then recolours the old
 `parent` pointer, which after the rotation is the lower of the two nodes,
 instead of the new top of the straightened line, and the loop goes on from
 that lower node. Everything else matches `RbInsert.FixUp`. Inserting "c",
 "a", "b" shows the damage: the root ends black with a black left child and a
 red right child, so the two sides have different black heights.
 */
module RbStale {
  import opened Records
  import opened Entries
  import opened RbTrees
  import RbInsert

  /** Recolour a subtree's left child (no-op on an empty position). */
  function PaintLeft(t: Tree, c: Color): (r: Tree)
    ensures Inorder(r) == Inorder(t)
    ensures t.Node? ==> r.Node? && r.color == t.color && RootColor(r.left) == (if t.left.Leaf? then Black else c)
  {
    if t.Leaf? then t else t.(left := Paint(t.left, c))
  }

  /** Recolour a subtree's right child (no-op on an empty position). */
  function PaintRight(t: Tree, c: Color): (r: Tree)
    ensures Inorder(r) == Inorder(t)
    ensures t.Node? ==> r.Node? && r.color == t.color && RootColor(r.right) == (if t.right.Leaf? then Black else c)
  {
    if t.Leaf? then t else t.(right := Paint(t.right, c))
  }

  /** The node is the inner grandchild: left of a right child or right of a
      left child. */
  predicate ZigZag(parent: Frame, grand: Frame)
  {
    grand.dir != parent.dir
  }

  /** main.cpp's black-uncle case: on a zig-zag the black goes to the old
      parent, now the child of the rotated line's top. */
  function BlackUncleStale(node: Tree, parent: Frame, grand: Frame): (r: Tree)
    requires node.Node?
    ensures Inorder(r) == Inorder(Rebuild(grand, Rebuild(parent, node)))
    ensures ZigZag(parent, grand) ==>
              r.Node? && (if grand.dir == Left then r.left.Node? else r.right.Node?)
  {
    var sub := Rebuild(parent, node);
    if grand.dir == Left then
      var p := if parent.dir == Right then PaintLeft(RotateLeft(sub), Black) else Paint(sub, Black);
      RotateRight(Node(Red, p, grand.key, grand.values, grand.sibling))
    else
      var p := if parent.dir == Left then PaintRight(RotateRight(sub), Black) else Paint(sub, Black);
      RotateLeft(Node(Red, grand.sibling, grand.key, grand.values, p))
  }

  /** main.cpp's `fixInsert`: the loop of `RbInsert.FixUp` with the stale
      recolouring. After a zig-zag, `node` is the old parent, now the child of
      the rotated line's top on the grandparent's side, and the loop goes on
      from there; after a straight line `node`'s parent is black and the loop
      ends. */
  function FixUpStale(node: Tree, path: Path): (r: Tree)
    requires node.Node?
    ensures RootColor(r) == Black
    ensures Inorder(r) == Inorder(Plug(node, path))
    decreases |path|
  {
    if path == [] || path[0].color == Black || |path| == 1 then
      Paint(Plug(node, path), Black)
    else
      var parent, grand := path[0], path[1];
      var uncle := grand.sibling;
      var before := Rebuild(grand, Rebuild(parent, node));
      assert Plug(node, path) == Plug(before, path[2..]);
      if RootColor(uncle) == Red then
        var node' := RbInsert.RedUncle(node, parent, grand);
        PlugSameInorder(node', before, path[2..]);
        FixUpStale(node', path[2..])
      else
        var after := BlackUncleStale(node, parent, grand);
        PlugSameInorder(after, before, path[2..]);
        if ZigZag(parent, grand) then
          var top := Frame(grand.dir, after.color, after.key, after.values,
                           if grand.dir == Left then after.right else after.left);
          var node' := if grand.dir == Left then after.left else after.right;
          assert Rebuild(top, node') == after;
          assert ([top] + path[2..])[1..] == path[2..];
          FixUpStale(node', [top] + path[2..])
        else
          Paint(Plug(after, path[2..]), Black)
  }

  /** main.cpp's `insertRBT`, descending as `RbInsert.InsertAt` does. Like
      the corrected insertion it loses and duplicates no record. */
  function InsertAtStale(t: Tree, d: Data, path: Path): (r: Tree)
    ensures Held(Inorder(r)) == Held(Inorder(Plug(t, path))) + multiset{d}
    decreases t
  {
    match t
    case Leaf =>
      var n := Node(Red, Leaf, d.key, [d], Leaf);
      HeldNode(n);
      PlugHeld(n, Leaf, path, multiset{d});
      FixUpStale(n, path)
    case Node(c, l, k, v, rt) =>
      if d.key == k then
        var n := Node(c, l, k, v + [d], rt);
        HeldNode(n);
        HeldNode(t);
        PlugHeld(n, t, path, multiset{d});
        Plug(n, path)
      else if Less(d.key, k) then
        var f := Frame(Left, c, k, v, rt);
        assert ([f] + path)[1..] == path;
        InsertAtStale(l, d, [f] + path)
      else
        var f := Frame(Right, c, k, v, l);
        assert ([f] + path)[1..] == path;
        InsertAtStale(rt, d, [f] + path)
  }

  /** The tree main.cpp builds from the records in order: it holds exactly
      the input records. */
  function BuildStale(data: seq<Data>): (t: Tree)
    ensures Held(Inorder(t)) == multiset(data)
  {
    if data == [] then Leaf
    else
      assert data == data[..|data| - 1] + [data[|data| - 1]];
      InsertAtStale(BuildStale(data[..|data| - 1]), data[|data| - 1], [])
  }

  /** Records with keys "c", "a", "b" (bytes 99, 97, 98), inserted in that order. */
  function ZigZagInput(): seq<Data>
  {
    [Data([99], 1), Data([97], 2), Data([98], 3)]
  }

  /** As written, main.cpp leaves a tree whose two sides have different black
      heights; the corrected fix-up leaves a red-black tree. */
  lemma StaleFixUpUnbalances()
    ensures BuildStale(ZigZagInput())
         == Node(Black, Node(Black, Leaf, [97], [Data([97], 2)], Leaf), [98], [Data([98], 3)],
                        Node(Red, Leaf, [99], [Data([99], 1)], Leaf))
    ensures !BlackBalanced(BuildStale(ZigZagInput()))
    ensures IsRedBlack(RbInsert.Build(ZigZagInput()))
  {
    var input := ZigZagInput();
    var c, a, b := Data([99], 1), Data([97], 2), Data([98], 3);
    assert input[..2] == [c, a];
    StaleTwoRecords();
    StaleThirdDescends();
    StaleThirdFixUp();
  }

  /** "b" goes right of "a", below "c": a red node under a red parent. */
  lemma StaleThirdDescends()
    ensures InsertAtStale(Node(Black, Node(Red, Leaf, [97], [Data([97], 2)], Leaf), [99], [Data([99], 1)], Leaf),
                          Data([98], 3), [])
         == FixUpStale(Node(Red, Leaf, [98], [Data([98], 3)], Leaf),
                       [Frame(Right, Red, [97], [Data([97], 2)], Leaf), Frame(Left, Black, [99], [Data([99], 1)], Leaf)])
  {
    var c, a, b := Data([99], 1), Data([97], 2), Data([98], 3);
    var na := Node(Red, Leaf, [97], [a], Leaf);
    var t2 := Node(Black, na, [99], [c], Leaf);
    var p1 := [Frame(Left, Black, [99], [c], Leaf)];
    var path := [Frame(Right, Red, [97], [a], Leaf)] + p1;
    assert Less([98], [99]) && !Less([98], [97]);
    assert [Frame(Left, Black, [99], [c], Leaf)] + [] == p1;
    assert InsertAtStale(t2, b, []) == InsertAtStale(na, b, p1);
    assert InsertAtStale(na, b, p1) == InsertAtStale(Leaf, b, path);
  }

  /** main.cpp's fix-up on that zig-zag: the rotations put "b" on top and the
      black goes to the stale parent "a"; the loop goes on from "a", finds no
      grandparent, and paints the root "b" black. */
  lemma StaleThirdFixUp()
    ensures FixUpStale(Node(Red, Leaf, [98], [Data([98], 3)], Leaf),
                       [Frame(Right, Red, [97], [Data([97], 2)], Leaf), Frame(Left, Black, [99], [Data([99], 1)], Leaf)])
         == Node(Black, Node(Black, Leaf, [97], [Data([97], 2)], Leaf), [98], [Data([98], 3)],
                        Node(Red, Leaf, [99], [Data([99], 1)], Leaf))
  {
    var c, a, b := Data([99], 1), Data([97], 2), Data([98], 3);
    var path := [Frame(Right, Red, [97], [a], Leaf), Frame(Left, Black, [99], [c], Leaf)];
    var nb := Node(Red, Leaf, [98], [b], Leaf);
    assert path[2..] == [];
    var after := Node(Red, Node(Black, Leaf, [97], [a], Leaf), [98], [b], Node(Red, Leaf, [99], [c], Leaf));
    assert BlackUncleStale(nb, path[0], path[1]) == after;
    var top := Frame(Left, Red, [98], [b], Node(Red, Leaf, [99], [c], Leaf));
    var lower := Node(Black, Leaf, [97], [a], Leaf);
    assert [top] + [] == [top];
    assert FixUpStale(nb, path) == FixUpStale(lower, [top]);
    assert Plug(lower, [top]) == after;
  }

  /** After "c" and "a": a black "c" with a red left child "a". */
  lemma StaleTwoRecords()
    ensures BuildStale([Data([99], 1), Data([97], 2)])
         == Node(Black, Node(Red, Leaf, [97], [Data([97], 2)], Leaf), [99], [Data([99], 1)], Leaf)
  {
    var c, a := Data([99], 1), Data([97], 2);
    assert [c, a][..1] == [c] && [c][..0] == [];
    var t1 := Node(Black, Leaf, [99], [c], Leaf);
    assert BuildStale([c]) == t1 by {
      assert InsertAtStale(Leaf, c, []) == t1;
    }
    var p1 := [Frame(Left, Black, [99], [c], Leaf)];
    var na := Node(Red, Leaf, [97], [a], Leaf);
    assert Less([97], [99]);
    assert p1[1..] == [];
    assert Plug(na, p1) == Node(Black, na, [99], [c], Leaf);
    assert [Frame(Left, Black, [99], [c], Leaf)] + [] == p1;
    assert InsertAtStale(t1, a, []) == InsertAtStale(Leaf, a, p1);
  }
}

=== FILE: rb_trees.dfy ===
/**
 The red-black tree's data: nodes holding a key, the records stored under it
 and a colour; the two rotations; and a zipper that stands in for the
 parent pointers. A zipper is a subtree in focus together with the path of
 frames back to the root, `path[0]` being the focus's parent. Rebuilding the
 whole tree from a zipper is `Plug`; the pointer rewiring the source does by
 hand (child to parent, parent to child, or the root variable) is what `Plug`
 does by construction, so child and parent links can never disagree here.
 */
module RbTrees {
  import opened Records
  import opened Entries

  datatype Color = Red | Black

  datatype Tree =
    | Leaf
    | Node(color: Color, left: Tree, key: Key, values: seq<Data>, right: Tree)

  /** Which child of a frame's node the subtree below it is. */
  datatype Dir = Left | Right

  /** A node on the way from the focus to the root, without the child the
      path came through; `sibling` is its other child. */
  datatype Frame = Frame(dir: Dir, color: Color, key: Key, values: seq<Data>, sibling: Tree)

  /** Parent first, root last. */
  type Path = seq<Frame>

  /** The colour of a subtree's root; an empty position counts as black. */
  function RootColor(t: Tree): Color
  {
    if t.Leaf? then Black else t.color
  }

  /** The same subtree with its root recoloured (an empty position stays empty). */
  function Paint(t: Tree, c: Color): Tree
  {
    if t.Leaf? then Leaf else t.(color := c)
  }

  /** The node of frame `f`, with `t` put back as the child the path came through. */
  function Rebuild(f: Frame, t: Tree): Tree
  {
    if f.dir == Left then Node(f.color, t, f.key, f.values, f.sibling)
    else Node(f.color, f.sibling, f.key, f.values, t)
  }

  /** The whole tree: `t` rebuilt into every frame of `path`, up to the root. */
  function Plug(t: Tree, path: Path): Tree
    decreases |path|
  {
    if path == [] then t else Plug(Rebuild(path[0], t), path[1..])
  }

  /** The entries of the tree in key order, one per node. */
  function Inorder(t: Tree): seq<Entry>
  {
    match t
    case Leaf => []
    case Node(_, l, k, v, r) => Inorder(l) + [Entry(k, v)] + Inorder(r)
  }

  /** `leftRotate`: the pivot's right child takes the pivot's place and the
      pivot becomes its left child, taking over the child's left subtree. A
      pivot without a right child is left alone. */
  function RotateLeft(t: Tree): (r: Tree)
    ensures Inorder(r) == Inorder(t)
    ensures !(t.Node? && t.right.Node?) ==> r == t
    ensures t.Node? && t.right.Node? ==>
              && r.Node? && r.key == t.right.key && r.right == t.right.right
              && r.color == t.right.color && r.values == t.right.values
              && r.left.Node? && r.left.key == t.key && r.left.left == t.left
              && r.left.color == t.color && r.left.values == t.values
              && r.left.right == t.right.left
  {
    if t.Node? && t.right.Node? then
      var y := t.right;
      Node(y.color, Node(t.color, t.left, t.key, t.values, y.left), y.key, y.values, y.right)
    else t
  }

  /** `rightRotate`: the mirror image of `RotateLeft`. */
  function RotateRight(t: Tree): (r: Tree)
    ensures Inorder(r) == Inorder(t)
    ensures !(t.Node? && t.left.Node?) ==> r == t
    ensures t.Node? && t.left.Node? ==>
              && r.Node? && r.key == t.left.key && r.left == t.left.left
              && r.color == t.left.color && r.values == t.left.values
              && r.right.Node? && r.right.key == t.key && r.right.right == t.right
              && r.right.color == t.color && r.right.values == t.values
              && r.right.left == t.left.right
  {
    if t.Node? && t.left.Node? then
      var y := t.left;
      Node(y.color, y.left, y.key, y.values, Node(t.color, y.right, t.key, t.values, t.right))
    else t
  }

  /** The entries in front of the focus: those of the subtrees the path left
      behind on the focus's left. */
  function PathBefore(path: Path): seq<Entry>
    decreases |path|
  {
    if path == [] then []
    else
      var f := path[0];
      PathBefore(path[1..]) + (if f.dir == Right then Inorder(f.sibling) + [Entry(f.key, f.values)] else [])
  }

  /** The entries behind the focus. */
  function PathAfter(path: Path): seq<Entry>
    decreases |path|
  {
    if path == [] then []
    else
      var f := path[0];
      (if f.dir == Left then [Entry(f.key, f.values)] + Inorder(f.sibling) else []) + PathAfter(path[1..])
  }

  /** Plugging a subtree into a path puts its entries between the path's. */
  lemma {:induction false} PlugInorder(t: Tree, path: Path)
    ensures Inorder(Plug(t, path)) == PathBefore(path) + Inorder(t) + PathAfter(path)
    decreases |path|
  {
    if path != [] {
      PlugInorder(Rebuild(path[0], t), path[1..]);
    }
  }

  /** Subtrees with the same entries give whole trees with the same entries. */
  lemma PlugSameInorder(a: Tree, b: Tree, path: Path)
    requires Inorder(a) == Inorder(b)
    ensures Inorder(Plug(a, path)) == Inorder(Plug(b, path))
  {
    PlugInorder(a, path);
    PlugInorder(b, path);
  }

  /** A subtree holding the records of another plus `m` gives, put into the
      same position, a whole tree holding the other's records plus `m`. */
  lemma PlugHeld(a: Tree, b: Tree, path: Path, m: multiset<Data>)
    requires Held(Inorder(a)) == Held(Inorder(b)) + m
    ensures Held(Inorder(Plug(a, path))) == Held(Inorder(Plug(b, path))) + m
  {
    PlugInorder(a, path);
    PlugInorder(b, path);
    HeldAppend(PathBefore(path) + Inorder(a), PathAfter(path));
    HeldAppend(PathBefore(path), Inorder(a));
    HeldAppend(PathBefore(path) + Inorder(b), PathAfter(path));
    HeldAppend(PathBefore(path), Inorder(b));
  }

  /** A node holds its own records and those of its two subtrees. */
  lemma HeldNode(t: Tree)
    requires t.Node?
    ensures Held(Inorder(t)) == Held(Inorder(t.left)) + multiset(t.values) + Held(Inorder(t.right))
  {
    HeldAppend(Inorder(t.left) + [Entry(t.key, t.values)], Inorder(t.right));
    HeldAppend(Inorder(t.left), [Entry(t.key, t.values)]);
    assert Held([Entry(t.key, t.values)]) == multiset(t.values);
  }

  /** Below the root, the root of the whole tree is the last frame's node:
      its colour, key and records; at the root, the subtree itself. */
  lemma {:induction false} PlugRootColor(t: Tree, path: Path)
    ensures RootColor(Plug(t, path)) == if path == [] then RootColor(t) else path[|path| - 1].color
    ensures path == [] ==> Plug(t, path) == t
    ensures path != [] ==>
              && Plug(t, path).Node?
              && Plug(t, path).color == path[|path| - 1].color
              && Plug(t, path).key == path[|path| - 1].key
              && Plug(t, path).values == path[|path| - 1].values
    decreases |path|
  {
    if path != [] {
      PlugRootColor(Rebuild(path[0], t), path[1..]);
    }
  }

  // ---------------------------------------------------------------------
  // The red-black invariants

  /** Black nodes from a node down to an empty position along the left
      spine; `BlackBalanced` makes every such path count the same. */
  function BlackHeight(t: Tree): nat
  {
    match t
    case Leaf => 0
    case Node(c, l, _, _, _) => BlackHeight(l) + (if c == Black then 1 else 0)
  }

  /** Every path from a node down to an empty position meets the same number
      of black nodes. */
  ghost predicate BlackBalanced(t: Tree)
  {
    match t
    case Leaf => true
    case Node(_, l, _, _, r) => BlackBalanced(l) && BlackBalanced(r) && BlackHeight(l) == BlackHeight(r)
  }

  /** No red node has a red child. */
  ghost predicate RedSeparated(t: Tree)
  {
    match t
    case Leaf => true
    case Node(c, l, _, _, r) =>
      && RedSeparated(l) && RedSeparated(r)
      && (c == Red ==> RootColor(l) == Black && RootColor(r) == Black)
  }

  /** The three red-black invariants: black root, no red-red edge, uniform
      black height. */
  ghost predicate IsRedBlack(t: Tree)
  {
    RootColor(t) == Black && RedSeparated(t) && BlackBalanced(t)
  }

  /** Node keys strictly increase in order: left < key < right everywhere. */
  ghost predicate Ordered(t: Tree)
  {
    Sorted(Inorder(t))
  }

  /** Some node carries `key`. */
  ghost predicate HasKey(t: Tree, key: Key)
  {
    exists e | e in Inorder(t) :: e.key == key
  }

  /** The tree with every record list emptied: keys, colours and links only. */
  function Shape(t: Tree): Tree
  {
    match t
    case Leaf => Leaf
    case Node(c, l, k, _, r) => Node(c, Shape(l), k, [], Shape(r))
  }

  /** The tree with every node black: keys, records and links only. */
  function Uncolored(t: Tree): Tree
  {
    match t
    case Leaf => Leaf
    case Node(_, l, k, v, r) => Node(Black, Uncolored(l), k, v, Uncolored(r))
  }

  /** Plugging subtrees of one shape into a path gives trees of one shape. */
  lemma {:induction false} PlugSameShape(a: Tree, b: Tree, path: Path)
    requires Shape(a) == Shape(b)
    ensures Shape(Plug(a, path)) == Shape(Plug(b, path))
    decreases |path|
  {
    if path != [] {
      PlugSameShape(Rebuild(path[0], a), Rebuild(path[0], b), path[1..]);
    }
  }

  /** Every path that counts the black nodes from anywhere down to an empty
      position meets `h` of them (the definitional form of black height). */
  ghost predicate AllPathsBlack(t: Tree, h: int)
  {
    match t
    case Leaf => h == 0
    case Node(c, l, _, _, r) =>
      var h' := if c == Black then h - 1 else h;
      AllPathsBlack(l, h') && AllPathsBlack(r, h')
  }

  /** A balanced tree's black height is the count on every path, not just the
      left spine. */
  lemma {:induction false} BalancedAllPaths(t: Tree)
    requires BlackBalanced(t)
    ensures AllPathsBlack(t, BlackHeight(t))
  {
    if t.Node? {
      BalancedAllPaths(t.left);
      BalancedAllPaths(t.right);
    }
  }

  /** A frame whose sibling is a valid subtree of black height `h`, black at
      its root when the frame's node is red. */
  ghost predicate FrameFits(f: Frame, h: nat)
  {
    && RedSeparated(f.sibling) && BlackBalanced(f.sibling) && BlackHeight(f.sibling) == h
    && (f.color == Red ==> RootColor(f.sibling) == Black)
  }

  /** The path a subtree of black height `h` and root colour `c` can be
      plugged into with every invariant but the root's colour holding. */
  ghost predicate PathFits(path: Path, h: nat, c: Color)
    decreases |path|
  {
    path == [] ||
    (&& FrameFits(path[0], h)
     && (path[0].color == Red ==> c == Black)
     && PathFits(path[1..], h + (if path[0].color == Black then 1 else 0), path[0].color))
  }

  /** The path during fix-up: as `PathFits`, except that the focus (red) may
      have a red parent. */
  ghost predicate FixupPathFits(path: Path, h: nat)
  {
    path == [] ||
    (&& FrameFits(path[0], h)
     && PathFits(path[1..], h + (if path[0].color == Black then 1 else 0), path[0].color))
  }

  /** Plugging a valid subtree into a fitting path yields a tree where no red
      node has a red child and black heights are uniform. */
  lemma {:induction false} PlugValid(t: Tree, path: Path)
    requires RedSeparated(t) && BlackBalanced(t) && PathFits(path, BlackHeight(t), RootColor(t))
    ensures RedSeparated(Plug(t, path)) && BlackBalanced(Plug(t, path))
    decreases |path|
  {
    if path != [] {
      PlugValid(Rebuild(path[0], t), path[1..]);
    }
  }
}

=== FILE: records.dfy ===
/**
 The shared record model of the lookup structures: a record is a key (a byte
 string, as `std::string` holds it) with an integer payload. This module also
 fixes the key order used by every tree (the order of `std::string`'s `<`) and
 the linear scan that serves as the reference oracle for every other search.
 */
module Records {

  /** One byte of a key, compared as `unsigned char` the way `std::string` does. */
  type Byte = b: int | 0 <= b < 256

  type Key = seq<Byte>

  /** A record: its key (not unique across records) and its payload. */
  datatype Data = Data(key: Key, value: int)

  /** The order of `std::string::operator<`: lexicographic over unsigned bytes,
      a proper prefix being smaller than the longer string. */
  predicate Less(a: Key, b: Key)
    decreases |a|
  {
    if |b| == 0 then false
    else if |a| == 0 then true
    else if a[0] != b[0] then a[0] < b[0]
    else Less(a[1..], b[1..])
  }

  lemma {:induction false} LessIrreflexive(a: Key)
    ensures !Less(a, a)
    decreases |a|
  {
    if |a| > 0 {
      LessIrreflexive(a[1..]);
    }
  }

  lemma {:induction false} LessAsymmetric(a: Key, b: Key)
    ensures Less(a, b) ==> !Less(b, a)
    decreases |a|
  {
    if |a| > 0 && |b| > 0 && a[0] == b[0] {
      LessAsymmetric(a[1..], b[1..]);
    }
  }

  lemma {:induction false} LessTransitive(a: Key, b: Key, c: Key)
    requires Less(a, b) && Less(b, c)
    ensures Less(a, c)
    decreases |a|
  {
    if |a| > 0 && a[0] == b[0] && b[0] == c[0] {
      LessTransitive(a[1..], b[1..], c[1..]);
    }
  }

  /** Two distinct keys are always ordered one way or the other. */
  lemma {:induction false} LessTotal(a: Key, b: Key)
    ensures a == b || Less(a, b) || Less(b, a)
    decreases |a|
  {
    if |a| > 0 && |b| > 0 && a[0] == b[0] {
      LessTotal(a[1..], b[1..]);
      if a[1..] == b[1..] {
        assert a == [a[0]] + a[1..] && b == [b[0]] + b[1..];
      }
    }
  }

  /** `linearSearch`: every record whose key equals `key`, in input order. */
  function LinearSearch(data: seq<Data>, key: Key): (r: seq<Data>)
    ensures |r| <= |data|
    ensures forall x :: x in r <==> x in data && x.key == key
  {
    if data == [] then []
    else (if data[0].key == key then [data[0]] else []) + LinearSearch(data[1..], key)
  }

  /** The scan of a concatenation is the concatenation of the scans: this pins
      down the result order as the input order. */
  lemma {:induction false} LinearSearchAppend(a: seq<Data>, b: seq<Data>, key: Key)
    ensures LinearSearch(a + b, key) == LinearSearch(a, key) + LinearSearch(b, key)
    decreases |a|
  {
    if a == [] {
      assert a + b == b;
    } else {
      assert (a + b)[1..] == a[1..] + b;
      LinearSearchAppend(a[1..], b, key);
    }
  }

  /** Input without a matching key scans to nothing. */
  lemma LinearSearchNone(data: seq<Data>, key: Key)
    requires forall x | x in data :: x.key != key
    ensures LinearSearch(data, key) == []
  {
    if data != [] {
      LinearSearchNone(data[1..], key);
    }
  }

  /** The multiset of matches keeps every matching record with its multiplicity. */
  lemma {:induction false} LinearSearchCount(data: seq<Data>, key: Key, x: Data)
    ensures multiset(LinearSearch(data, key))[x] == if x.key == key then multiset(data)[x] else 0
    decreases |data|
  {
    if data != [] {
      LinearSearchCount(data[1..], key, x);
      assert data == [data[0]] + data[1..];
    }
  }

  /** The multiset of matches depends only on the multiset of the input. */
  lemma LinearSearchPermutation(a: seq<Data>, b: seq<Data>, key: Key)
    requires multiset(a) == multiset(b)
    ensures multiset(LinearSearch(a, key)) == multiset(LinearSearch(b, key))
  {
    forall x
      ensures multiset(LinearSearch(a, key))[x] == multiset(LinearSearch(b, key))[x]
    {
      LinearSearchCount(a, key, x);
      LinearSearchCount(b, key, x);
    }
  }
}
